=== FILE: README.md ===
# FTP client engine — a Dafny model

This project models the client engine of the IndustrialShields `FTP`
library (`src/FTP.cpp`). The engine logs in over a control connection,
switches to binary mode and asks for a passive data port, then downloads
(`retrieve`) or uploads (`store`) one file over a data connection. The
protocol is the subset of RFC 959 that the class uses.

The model has eight modules, one per piece of the engine:

- `Base`: bytes (`Byte`, characters below 256), `Option`, IPv4
  endpoints, decimal digits, C strings (`CStr`, cut at the first NUL) and
  index search helpers.
- `ReplyReader`: `waitServerCode(char *desc)`. `ReplyOf` is the reference
  reading of one reply. `ReadReply` is the byte loop of the C code, proved
  to compute the same reply. Lemmas cover the 16-bit reply code, CR/LF
  framing and the round trip with a server's formatted reply.
- `Control`: the control channel as one byte stream read one reply per
  wait. `Script` is the list of replies the client reads. Lemmas show that
  replies sent back to back, or one per wait, are read intact.
- `Pasv`: the PASV decoder of `beginTransaction`. It models C `strtok`
  (leading delimiters are skipped and no token is empty), C `atoi`,
  truncation to `uint8_t` and the port as `(p1 << 8) | p2`. It also proves
  the round trip from an endpoint written in a 227 reply.
- `Commands`: command lines (`USER`, `PASS`, `TYPE I`, `RETR`, `STOR`) as
  written by `waitServerCode(cmd, arg, ...)`, and `PASV` as written by
  `cClient.println(F("PASV"))`; both produce the name, an optional space
  and argument, and CRLF. A server-side parser is their inverse.
- `Pump`: the receive loop of `retrieve`, over a script of data-channel
  events.
- `Session`: `connect`, `beginTransaction`, `retrieve` and `store`.
  - Each is a function from a session state to a result and a new state.
  - The state holds the replies still to be read and whether each channel
    is open.
  - The peers' behaviour (does a connection come up, what the data channel
    delivers or accepts) is passed in as arguments.
  - The result also carries the events the call causes, in order:
    connects, commands, replies read, writes and stops.
- `Scenarios`: `connect` driven by the bytes a server sends. It also shows
  how a multi-line greeting is read.

The model follows the code where it is narrower than RFC 959 or than a
careful client would be:

- only 150 is accepted after `RETR`/`STOR`, although the command-reply
  sequences of RFC 959 (section 5.4) also list 125 ("data connection
  already open") as a preliminary reply to both commands;
- the class sends no `QUIT` and has no operation that closes the session;
- when `RETR`/`STOR` gets a reply other than 150, the call returns
  without `dClient.stop()`, so the data channel stays open;
- when the control connection does not come up, `connect` returns 0
  without calling `cClient.stop()`;
- the description is written into `pasvResponse[70]` without a bound, so
  a PASV reply text of 70 bytes or more is a precondition violation here,
  not a truncation.

## Model

| member | source | states |
|---|---|---|
| ReplyReader.ReplyOf | src/FTP.cpp:202-254 | one wait consumes input up to and including the first LF (all of it when there is none); the description never holds CR or LF; no input gives code 0 and an empty description |
| ReplyReader.ReadReply | src/FTP.cpp:214-253 | the C loop (CR skipped, LF ends the line, bytes before the first space folded into the code modulo 2^16, later bytes appended to the description) yields exactly the reference reply `ReplyOf` |
| ReplyReader.CodeOfDigits | src/FTP.cpp:239-240 | on a run of decimal digits, `code = code * 10 + (c - '0')` in `uint16_t` gives the digits' decimal value modulo 2^16 |
| ReplyReader.CRLFLine | src/FTP.cpp:231-234 | a line ended by CRLF is read without its CR, and the bytes after the LF stay in the channel |
| ReplyReader.DecimalLine | src/FTP.cpp:231-244 | digits, space, text, CRLF: the code is the digits' value, the description is exactly the text (spaces included), and nothing after the LF is consumed |
| ReplyReader.FormatReplyRoundTrip | src/FTP.cpp:202-254 | a one-line reply with a three-digit code, formatted as RFC 959 section 4.2 lays it out, is read back with the same code and text |
| Control.BufferedReplies | src/FTP.cpp:217-247 | several replies already waiting in the channel are read one per call, each with its own code and text |
| Control.SpacedReplies | src/FTP.cpp:217-247 | replies that each arrive during their own wait are read with their codes and texts |
| Pasv.Strtok | src/FTP.cpp:86-88 | `strtok` returns null exactly when only delimiters remain; otherwise a non-empty token free of delimiters, and the rest is a suffix of the input |
| Pasv.StrtokSplit | src/FTP.cpp:86-88 | conversely, leading delimiters, a token and one delimiter are split exactly there |
| Pasv.AtoiDec | src/FTP.cpp:92 | `atoi` reads back a decimal number followed by a non-digit |
| Pasv.AtoiSigned | src/FTP.cpp:92 | `atoi` skips leading white space (space, tab, LF, VT, FF, CR), applies an optional `-` or `+`, and reads the digits up to the first non-digit: `"  -19)"` gives -19 |
| Pasv.ToU8 | src/FTP.cpp:92 | conversion to `uint8_t` leaves values 0..255 unchanged |
| Pasv.EndpointOf | src/FTP.cpp:95-96 | fields in 0..255 are the address bytes and the port's high and low bytes of the endpoint built |
| Pasv.DecodePasv | src/FTP.cpp:85-96 | an endpoint is decoded exactly when six tokens follow the "(" token |
| Pasv.NoParenRejected | src/FTP.cpp:86-91 | a description without "(" never yields an endpoint |
| Pasv.LeadingParenRejected | src/FTP.cpp:86-91 | when the only "(" is the first byte, `strtok` skips it and the description is rejected even if six fields follow |
| Pasv.CommaListFields | src/FTP.cpp:87-93 | six comma-separated numbers are split into six tokens that `atoi` reads back |
| Pasv.FieldsDecode | src/FTP.cpp:85-96 | a description "text(n1,...,n6)suffix" with every number within `int` decodes to the numbers truncated to 8 bits, with port `n5 * 256 + n6` |
| Pasv.PasvRoundTrip | src/FTP.cpp:85-96 | every endpoint written into a PASV description is decoded back to itself |
| Pasv.PasvExample | src/FTP.cpp:80-96 | "Entering Passive Mode (192,168,1,5,19,136)." decodes to 192.168.1.5 port 5000; the trailing ")." is ignored |
| Commands.Wire | src/FTP.cpp:177-199 | a command line starts with the command name and ends with CRLF; with no argument it is exactly the name and CRLF |
| Commands.FormatRoundTrip | src/FTP.cpp:178-193 | a server parsing the line reads back the name and argument written |
| Commands.WireRoundTrip | src/FTP.cpp:177-199 | every command but `TYPE I` reaches the server as its own name with the caller's argument |
| Commands.TypeImageOnWire | src/FTP.cpp:71 | `TYPE I`, printed as one name, reaches the server as command `TYPE` with argument `I` |
| Pump.Pumped | src/FTP.cpp:120-135 | the buffer receives a prefix of the delivered bytes, never more than the capacity, and all of them when fewer arrive |
| Pump.ReceivePump | src/FTP.cpp:120-135 | the loop that reads `min(available, remaining)` bytes per step fills the buffer with exactly `Pumped` and never more than `size` bytes |
| Session.Connect | src/FTP.cpp:25-63 | returns 1 iff a user is given, the channel comes up, the greeting is 220, and USER gets 230 or gets 331 with a password whose PASS gets 230; no user means no event; after a 220 greeting, USER with the caller's name is the third event and its reply the fourth; every failure after the connection is up ends with `cClient.stop()`; a PASS command of any argument is sent iff USER got 331 and a password exists, and it is then the fifth event and carries that password; when the channel does not come up the trace is the connect alone, and after a greeting other than 220 it is the connect, that reply and `cClient.stop()`; a successful login ends the trace with the last reply read (4 events, or 6 with PASS), and a failed one after 220 ends it with `cClient.stop()` (5 events, or 7 with PASS) |
| Session.ConnectDefaultPort | src/FTP.h:13-15 | the overload connects to port 21 and succeeds under the same condition |
| Session.EnterPassive | src/FTP.cpp:75-103 | sends PASV and reads the reply; connects the data channel to the decoded endpoint exactly when the reply is 227 with six fields, and returns 1 iff that connection comes up |
| Session.BeginTransaction | src/FTP.cpp:66-104 | returns 1 iff the control channel is up, `TYPE I` gets 200, PASV offers an endpoint and the data channel comes up; nothing is sent when the control channel is down; `TYPE I` and PASV are sent in that order; the control channel is never closed, and every event is one of those two command lines, a reply or the data connect, so no `cClient.stop()` and no other command appears |
| Session.BeginTransactionDataConnect | src/FTP.cpp:67-98 | `dClient.connect` is called, as the fifth event and with the decoded endpoint, only when passive mode was offered; on every earlier return no data connect happens, and after 200 with no endpoint offered the trace ends with the PASV reply (4 events) |
| Session.Fetch | src/FTP.cpp:116-143 | after RETR: a reply other than 150 returns 0 with nothing read; after 150 the buffer holds the pumped bytes, the data channel is stopped before the final reply is read, and the count is the bytes read iff that reply is 226 |
| Session.Retrieve | src/FTP.cpp:107-144 | a null buffer or size 0 returns 0 with no event, whatever the server would reply; the count never exceeds `size`; a non-zero count needs a successful `beginTransaction`, 150 and 226, and then equals the bytes in the buffer; when `beginTransaction` fails, the trace holds only the kinds of events `beginTransaction` produces: no RETR and no `dClient.stop()` |
| Session.RetrieveRefused | src/FTP.cpp:116-118 | after a successful `beginTransaction`, RETR is the sixth event; a reply other than 150 returns 0 with the data channel still open |
| Session.RetrieveReceives | src/FTP.cpp:120-143 | after 150, the buffer holds the pumped bytes, `dClient.stop()` comes before the final reply, and the count is the number of bytes read if that reply is 226 and 0 otherwise |
| Session.Deliver | src/FTP.cpp:156-168 | after STOR: a reply other than 150 returns 0 with nothing written; after 150 the bytes the channel takes are written, the data channel is stopped before the final reply, and the count is the bytes written iff that reply is 226 |
| Session.Store | src/FTP.cpp:147-169 | a null buffer or size 0 returns 0 with no event, whatever the server would reply; a non-zero count needs a successful `beginTransaction`, 150 and 226, and then equals what the data channel took; when `beginTransaction` fails, the trace holds only the kinds of events `beginTransaction` produces: no STOR, no write to the data channel and no `dClient.stop()` |
| Session.StoreSends | src/FTP.cpp:156-168 | after a successful `beginTransaction`, STOR is the sixth event; a reply other than 150 returns 0 with the data channel open; after 150 come the write, `dClient.stop()` and the final reply, in that order, and the count is what the channel took if that reply is 226 and 0 otherwise |
| Scenarios.ConnectOverWire | src/FTP.cpp:35-58 | when a server sends two or more well-formed replies, the login succeeds iff the codes on the wire are 220 and 230, or 220, 331 and a third reply 230 with a password given |
| Scenarios.MultiLineGreetingRejected | src/FTP.cpp:35-38 | a multi-line greeting "220-Welcome" is read as code 39307, so `connect` fails and stops the control channel |

## Left out

- Time. The polling with `millis()`/`delay()`, the 15-second deadlines and
  the initial wait for four available bytes are not modelled. Each reply
  wait sees the bytes that arrive before its deadline (`Control`). The
  receive loop sees a script whose `Stalled` event stands for the stall
  timeout (`Pump`).
- The `#if DEBUG` echo to `Serial` is left out: it is output only.
- The `Client` and `IPAddress` implementations are external code.
  - Whether `cClient`/`dClient` connect is a boolean argument.
  - What the data channel delivers is a list of events.
  - How many bytes `dClient.write` accepts is a number; the model writes
    `min(accepted, size)` bytes.
- `int waitServerCode(cmd, arg, response)` (src/FTP.cpp:172-174) is not a
  separate member. Its comparison with the expected code is part of
  `Session.BeginTransaction`.
- The constructor (src/FTP.cpp:21-22) only stores the two clients.
- The unbounded write into `pasvResponse[70]` is undefined behaviour.
  `Session.BeginTransaction` requires the PASV description it would read
  to be shorter than 70 bytes (`PasvDefined`). `Session.Retrieve` and
  `Session.Store` require it only when they get past the null-buffer and
  size-0 check.
- `atoi` overflow is undefined behaviour, so every PASV token read must
  fit in `int` (`FieldsFitInt`).
- Pasv.FitsInt assumes a 32-bit `int`. On boards where `int` is 16 bits
  (AVR), a token above 32767 or below -32768 already overflows `atoi`, and
  the model gives it a defined value where those boards have none.
- Pump.ReceivePump assumes that each `dClient.read(ptr, len)` delivers
  the `len` bytes that `available()` reported. The code ignores the
  return value of `read` and advances `ptr`, and so the count, by `len`.
  On a short read or an error return, the buffer then holds bytes that
  were never received, and the count includes them.
- ReplyReader.CodeOf treats `char` as unsigned (0..255). Where `char` is
  signed, a byte of 0x80 or above before the first space contributes 256
  less to `c - '0'`.
- Session.Retrieve reports the bytes written into the caller's buffer.
  The rest of the buffer is unchanged, and the model does not represent
  it.
- Multi-line replies (section 4.2 of RFC 959) get no special treatment in
  the code, and the model reads them the same way.
  `Scenarios.MultiLineGreetingRejected` shows the consequence for a
  greeting.

=== FILE: base.dfy ===
/** Shared vocabulary of the FTP client model: the byte type of the two
    channels, fixed-width unsigned integers, Option, IPv4 endpoints and the
    small scanning helpers the reply reader and the PASV decoder both use. */
module Base {

  /** One octet as read from or written to a channel. Dafny's `char` is used so
      that protocol text can be written as string literals; the C code reads
      it as plain `char`, taken here as unsigned (0..255). */
  type Byte = c: char | c as int < 256

  /** `uint8_t` and `uint16_t`. */
  type U8 = x: int | 0 <= x < 256
  type U16 = x: int | 0 <= x < 65536

  const NUL: Byte := '\0'
  const CR: Byte := '\r'
  const LF: Byte := '\n'
  const SP: Byte := ' '

  datatype Option<+T> = None | Some(value: T)

  /** An IPv4 address, as built by `IPAddress(a, b, c, d)`. */
  datatype IPv4 = IPv4(a: U8, b: U8, c: U8, d: U8)

  /** Address and port of a TCP peer. */
  datatype Endpoint = Endpoint(ip: IPv4, port: U16)

  predicate IsDigit(c: Byte) {
    '0' <= c <= '9'
  }

  function DigitValue(c: Byte): (v: nat)
    requires IsDigit(c)
    ensures v < 10
  {
    c as int - '0' as int
  }

  function DigitChar(v: nat): (c: Byte)
    requires v < 10
    ensures IsDigit(c) && DigitValue(c) == v
  {
    ('0' as int + v) as char
  }

  predicate AllDigits(s: seq<Byte>) {
    forall i | 0 <= i < |s| :: IsDigit(s[i])
  }

  /** The value of a string of decimal digits, most significant first. */
  function DecimalValue(s: seq<Byte>): nat
    requires AllDigits(s)
  {
    if |s| == 0 then 0 else DecimalValue(s[..|s| - 1]) * 10 + DigitValue(s[|s| - 1])
  }

  /** The shortest decimal rendering of `n` (no leading zeros; "0" for 0). */
  function Dec(n: nat): (s: seq<Byte>)
    ensures 0 < |s| && AllDigits(s)
  {
    if n < 10 then [DigitChar(n)] else Dec(n / 10) + [DigitChar(n % 10)]
  }

  /** `Dec` and `DecimalValue` are inverse: rendering then reading gives `n` back. */
  lemma {:induction false} DecRoundTrip(n: nat)
    ensures DecimalValue(Dec(n)) == n
  {
    if n >= 10 {
      var s := Dec(n);
      assert s[..|s| - 1] == Dec(n / 10);
      DecRoundTrip(n / 10);
    }
  }

  /** Position of the first occurrence of `b` in `s`, or `|s|` if there is none. */
  function IndexOf(s: seq<Byte>, b: Byte): (k: nat)
    ensures k <= |s|
    ensures forall i | 0 <= i < k :: s[i] != b
    ensures k < |s| ==> s[k] == b
    ensures b !in s <==> k == |s|
  {
    if |s| == 0 then 0 else if s[0] == b then 0 else 1 + IndexOf(s[1..], b)
  }

  /** Position of the first byte of `s` that lies in `d`, or `|s|`. */
  function FirstIn(s: seq<Byte>, d: set<Byte>): (k: nat)
    ensures k <= |s|
    ensures forall i | 0 <= i < k :: s[i] !in d
    ensures k < |s| ==> s[k] in d
  {
    if |s| == 0 then 0 else if s[0] in d then 0 else 1 + FirstIn(s[1..], d)
  }

  /** Position of the first byte of `s` that lies outside `d`, or `|s|`. */
  function FirstNotIn(s: seq<Byte>, d: set<Byte>): (k: nat)
    ensures k <= |s|
    ensures forall i | 0 <= i < k :: s[i] in d
    ensures k < |s| ==> s[k] !in d
  {
    if |s| == 0 then 0 else if s[0] !in d then 0 else 1 + FirstNotIn(s[1..], d)
  }

  /** The C string held in a character buffer: everything before the first NUL. */
  function CStr(buf: seq<Byte>): (s: seq<Byte>)
    ensures NUL !in s
    ensures |s| <= |buf| && s == buf[..|s|]
    ensures |s| < |buf| ==> buf[|s|] == NUL
  {
    buf[..IndexOf(buf, NUL)]
  }

  /** `FirstIn` is the unique position its contract describes. */
  lemma {:induction false} FirstInIs(s: seq<Byte>, d: set<Byte>, k: nat)
    requires k <= |s|
    requires forall i | 0 <= i < k :: s[i] !in d
    requires k < |s| ==> s[k] in d
    ensures FirstIn(s, d) == k
  {
    if k > 0 {
      assert s[0] !in d;
      FirstInIs(s[1..], d, k - 1);
    }
  }

  /** `IndexOf` is the unique position its contract describes. */
  lemma {:induction false} IndexOfIs(s: seq<Byte>, b: Byte, k: nat)
    requires k <= |s|
    requires forall i | 0 <= i < k :: s[i] != b
    requires k < |s| ==> s[k] == b
    ensures IndexOf(s, b) == k
  {
    if k > 0 {
      assert s[0] != b;
      IndexOfIs(s[1..], b, k - 1);
    }
  }

  /** When `b` does not occur in `s`, its first occurrence in `s + t` is
      the first byte of `t`. */
  lemma IndexOfAfter(s: seq<Byte>, t: seq<Byte>, b: Byte)
    requires b !in s && 0 < |t| && t[0] == b
    ensures IndexOf(s + t, b) == |s|
  {
    forall i | 0 <= i < |s|
      ensures (s + t)[i] != b
    {
      assert (s + t)[i] == s[i];
    }
    IndexOfIs(s + t, b, |s|);
  }

  /** `FirstNotIn` is the unique position its contract describes. */
  lemma {:induction false} FirstNotInIs(s: seq<Byte>, d: set<Byte>, k: nat)
    requires k <= |s|
    requires forall i | 0 <= i < k :: s[i] in d
    requires k < |s| ==> s[k] !in d
    ensures FirstNotIn(s, d) == k
  {
    if k > 0 {
      assert s[0] in d;
      FirstNotInIs(s[1..], d, k - 1);
    }
  }
}

=== FILE: commands.dfy ===
/** Commands on the control channel (`FTP::waitServerCode(cmd, arg, ...)`).

    A command is printed as its name, then, when an argument pointer is
    given, a space and the argument's C string, then the line end that
    `println` emits (CRLF). The parser below is the server's view of such a
    line and serves as the inverse of the formatter. */
module Commands {
  import opened Base

  /** The commands the client sends. */
  datatype Verb = User | Pass | TypeImage | Pasv | Retr | Stor

  /** The text the client prints for each command (`F("USER")`, ...). */
  function Name(v: Verb): (n: seq<Byte>)
    ensures 4 <= |n| && SP !in n[..4]
  {
    match v
    case User => "USER"
    case Pass => "PASS"
    case TypeImage => "TYPE I"
    case Pasv => "PASV"
    case Retr => "RETR"
    case Stor => "STOR"
  }

  /** A command with its optional argument (`nullptr` is `None`). */
  datatype Command = Command(verb: Verb, arg: Option<seq<Byte>>)

  /** A command line as the server sees it: a name and an optional argument. */
  datatype CommandLine = CommandLine(name: seq<Byte>, arg: Option<seq<Byte>>)

  /** The bytes of a command line: name, then a space and the argument when
      there is one, then the CRLF that `println` emits. */
  function Format(l: CommandLine): (w: seq<Byte>)
    ensures |w| >= |l.name| + 2 && w[..|l.name|] == l.name
    ensures w[|w| - 2..] == [CR, LF]
  {
    l.name + (if l.arg.Some? then [SP] + l.arg.value else []) + [CR, LF]
  }

  /** The bytes the client writes for `cmd` (`FTP::waitServerCode(cmd, arg,
      ...)`): a null argument prints nothing, a present one is printed up to
      its first NUL. */
  function Wire(cmd: Command): (w: seq<Byte>)
    ensures |w| >= |Name(cmd.verb)| + 2 && w[..|Name(cmd.verb)|] == Name(cmd.verb)
    ensures w[|w| - 2..] == [CR, LF]
    ensures cmd.arg.None? ==> w == Name(cmd.verb) + [CR, LF]
  {
    Format(CommandLine(Name(cmd.verb), if cmd.arg.Some? then Some(CStr(cmd.arg.value)) else None))
  }

  /** A command line as the server splits it: the text before the first CRLF,
      the name up to the first space and the argument after it. `None` when
      the line has no CRLF. */
  function ParseCommand(line: seq<Byte>): (r: Option<CommandLine>)
    ensures r.Some? ==> SP !in r.value.name && CR !in r.value.name
  {
    var e := IndexOf(line, CR);
    if e + 1 >= |line| || line[e + 1] != LF then None
    else
      var text := line[..e];
      var sp := IndexOf(text, SP);
      Some(CommandLine(text[..sp], if sp < |text| then Some(text[sp + 1..]) else None))
  }

  /** What one command line can carry: a name without space, and no CR or LF
      anywhere. */
  predicate WellFormed(l: CommandLine) {
    && SP !in l.name && CR !in l.name && LF !in l.name
    && (l.arg.Some? ==> CR !in l.arg.value && LF !in l.arg.value)
  }

  /** Round trip: the server reads back exactly the line that was formatted,
      with or without an argument. */
  lemma FormatRoundTrip(l: CommandLine)
    requires WellFormed(l)
    ensures ParseCommand(Format(l)) == Some(l)
  {
    if l.arg.Some? {
      var text := l.name + [SP] + l.arg.value;
      ArgLine(l.name, l.arg.value);
      assert Format(l) == text + [CR, LF];
      ParseLine(text);
    } else {
      assert Format(l) == l.name + [CR, LF];
      ParseLine(l.name);
    }
  }

  /** Every command but `TYPE I` reaches the server as its own name with the
      argument the caller gave, when that argument is a C string without
      line breaks. */
  lemma WireRoundTrip(cmd: Command)
    requires cmd.verb != TypeImage
    requires cmd.arg.Some? ==> CR !in cmd.arg.value && LF !in cmd.arg.value && NUL !in cmd.arg.value
    ensures ParseCommand(Wire(cmd)) == Some(CommandLine(Name(cmd.verb), cmd.arg))
  {
    if cmd.arg.Some? {
      CStrWhole(cmd.arg.value);
    }
    var n := Name(cmd.verb);
    assert SP !in n && CR !in n && LF !in n by {
      assert |n| == 4;
      assert n[..4] == n;
    }
    FormatRoundTrip(CommandLine(n, cmd.arg));
  }

  /** The line of a command with an argument: no CR, and the first space is
      the one that separates the argument from the name. */
  lemma ArgLine(name: seq<Byte>, arg: seq<Byte>)
    requires SP !in name && CR !in name && CR !in arg
    ensures var text := name + [SP] + arg;
      && CR !in text
      && IndexOf(text, SP) == |name|
      && text[..|name|] == name
      && text[|name| + 1..] == arg
  {
    var text := name + [SP] + arg;
    forall i | 0 <= i < |name|
      ensures text[i] != SP
    {
      assert text[i] == name[i];
    }
    IndexOfIs(text, SP, |name|);
    assert text[..|name|] == name;
    assert text[|name| + 1..] == arg;
  }

  /** A line without CR followed by CRLF is split at its first space. */
  lemma ParseLine(text: seq<Byte>)
    requires CR !in text
    ensures var sp := IndexOf(text, SP);
      ParseCommand(text + [CR, LF])
      == Some(CommandLine(text[..sp], if sp < |text| then Some(text[sp + 1..]) else None))
  {
    var line := text + [CR, LF];
    assert line[|text|] == CR && line[|text| + 1] == LF;
    IndexOfAfter(text, [CR, LF], CR);
    assert line[..|text|] == text;
  }

  /** A C string without NUL is printed whole. */
  lemma CStrWhole(s: seq<Byte>)
    requires NUL !in s
    ensures CStr(s) == s
  {
  }

  /** `TYPE I` is printed as one name containing a space, so the server reads
      the `TYPE` command with argument `I`. */
  lemma TypeImageOnWire()
    ensures ParseCommand(Wire(Command(TypeImage, None))) == Some(CommandLine("TYPE", Some("I")))
  {
    var name: seq<Byte> := "TYPE";
    var arg: seq<Byte> := "I";
    TypeImageSplits(name, arg);
    ArgLine(name, arg);
    var text := name + [SP] + arg;
    assert Wire(Command(TypeImage, None)) == text + [CR, LF];
    ParseLine(text);
  }

  lemma TypeImageSplits(name: seq<Byte>, arg: seq<Byte>)
    requires name == "TYPE" && arg == "I"
    ensures Name(TypeImage) == name + [SP] + arg
    ensures SP !in name && CR !in name && CR !in arg
  {
    assert |name + [SP] + arg| == 6;
    forall i | 0 <= i < 6
      ensures Name(TypeImage)[i] == (name + [SP] + arg)[i]
    {
    }
  }
}

=== FILE: control.dfy ===
/** The control channel seen as a byte stream read one reply at a time.

    Each call of `waitServerCode` reads the bytes available before its
    deadline up to and including the first LF; whatever follows the LF stays
    in the channel for the next call. The session works on the resulting
    script of replies; this module derives that script from the bytes. */
module Control {
  import opened Base
  import opened ReplyReader

  /** Bytes left over after the last LF the client consumed, and, for each
      later wait, the bytes that arrive before that wait's deadline. */
  datatype ControlStream = ControlStream(pending: seq<Byte>, arrivals: seq<seq<Byte>>)

  /** The bytes one wait can read. */
  function Window(c: ControlStream): (w: seq<Byte>)
    ensures |c.arrivals| == 0 ==> w == c.pending
    ensures |c.arrivals| > 0 ==> w == c.pending + c.arrivals[0]
  {
    c.pending + (if |c.arrivals| > 0 then c.arrivals[0] else [])
  }

  /** The stream after one reply has been read: the unread bytes stay
      pending and the next wait sees the next arrivals. */
  function Next(c: ControlStream): (n: ControlStream)
    ensures n.pending == Window(c)[ReplyOf(Window(c)).consumed..]
    ensures n.arrivals == if |c.arrivals| > 0 then c.arrivals[1..] else []
  {
    var w := Window(c);
    ControlStream(w[ReplyOf(w).consumed..], if |c.arrivals| > 0 then c.arrivals[1..] else [])
  }

  /** The first `n` replies the client reads from `c`. */
  function Script(c: ControlStream, n: nat): (rs: seq<Reply>)
    ensures |rs| == n
    ensures n > 0 ==> rs[0] == ReplyOf(Window(c))
    decreases n
  {
    if n == 0 then [] else [ReplyOf(Window(c))] + Script(Next(c), n - 1)
  }

  /** A server's one-line reply: a three-digit code and a text without line
      breaks. */
  datatype Line = Line(code: nat, text: seq<Byte>)

  predicate ValidLine(l: Line) {
    l.code < 1000 && CR !in l.text && LF !in l.text
  }

  predicate ValidLines(ls: seq<Line>) {
    forall i | 0 <= i < |ls| :: ValidLine(ls[i])
  }

  /** The bytes of several replies sent back to back. */
  function Transcript(ls: seq<Line>): seq<Byte>
    requires ValidLines(ls)
  {
    if |ls| == 0 then [] else FormatReply(ls[0].code, ls[0].text) + Transcript(ls[1..])
  }

  /** What the client should read for each line: its code and text. */
  function Expected(ls: seq<Line>): (rs: seq<Reply>)
    requires ValidLines(ls)
    ensures |rs| == |ls|
  {
    if |ls| == 0 then []
    else [Reply(ls[0].code, ls[0].text, |FormatReply(ls[0].code, ls[0].text)|)] + Expected(ls[1..])
  }

  /** Framing: when several replies are already waiting in the channel, the
      client reads them one by one with their codes and texts intact, each
      read stopping at its own LF. */
  lemma {:induction false} BufferedReplies(ls: seq<Line>)
    requires ValidLines(ls)
    ensures Script(ControlStream(Transcript(ls), []), |ls|) == Expected(ls)
  {
    if |ls| > 0 {
      var c := ControlStream(Transcript(ls), []);
      var head := FormatReply(ls[0].code, ls[0].text);
      assert ValidLines(ls[1..]);
      FormatReplyRoundTrip(ls[0].code, ls[0].text, Transcript(ls[1..]));
      assert Window(c) == head + Transcript(ls[1..]);
      assert Next(c) == ControlStream(Transcript(ls[1..]), []);
      BufferedReplies(ls[1..]);
    }
  }

  /** The same when each reply arrives on its own, during the wait that
      reads it. */
  lemma {:induction false} SpacedReplies(ls: seq<Line>, arrivals: seq<seq<Byte>>)
    requires ValidLines(ls)
    requires |arrivals| == |ls|
    requires forall i | 0 <= i < |ls| :: arrivals[i] == FormatReply(ls[i].code, ls[i].text)
    ensures Script(ControlStream([], arrivals), |ls|) == Expected(ls)
  {
    if |ls| > 0 {
      var c := ControlStream([], arrivals);
      var head := FormatReply(ls[0].code, ls[0].text);
      FormatReplyRoundTrip(ls[0].code, ls[0].text, []);
      assert Window(c) == head + [];
      assert Next(c) == ControlStream([], arrivals[1..]);
      assert ValidLines(ls[1..]);
      SpacedReplies(ls[1..], arrivals[1..]);
    }
  }
}

=== FILE: pasv.dfy ===
/** The PASV reply decoder of `FTP::beginTransaction`.

    The description of a 227 reply (sections 4.1.2 and 4.2.2 of RFC 959)
    carries `h1,h2,h3,h4,p1,p2` after an opening parenthesis. The C code cuts
    it with `strtok` once on "(" and then six times on ",", converts each
    token with `atoi`, truncates it to `uint8_t`, and builds the address from
    the first four fields and the port as `(p1 << 8) | p2`. */
module Pasv {
  import opened Base

  /** Bytes `isspace` accepts in the C locale. */
  const Spaces: set<Byte> := {' ', '\t', '\n', 11 as char, 12 as char, '\r'}

  const OpenParen: set<Byte> := {'('}
  const Comma: set<Byte> := {','}

  /** One `strtok` call: the token returned (None for a null pointer) and the
      string the next `strtok(nullptr, …)` call continues from. */
  datatype Tok = Tok(token: Option<seq<Byte>>, rest: seq<Byte>)

  /** C `strtok`: skip leading delimiters; if nothing is left, return null;
      otherwise the token runs up to the next delimiter, which is consumed. */
  function Strtok(s: seq<Byte>, d: set<Byte>): (r: Tok)
    ensures r.token.None? <==> forall i | 0 <= i < |s| :: s[i] in d
    ensures r.token.None? ==> r.rest == []
    ensures r.token.Some? ==> 0 < |r.token.value| && forall i | 0 <= i < |r.token.value| :: r.token.value[i] !in d
    ensures |r.rest| <= |s| && r.rest == s[|s| - |r.rest|..]
    ensures r.token.Some? ==> |r.token.value| + |r.rest| <= |s|
  {
    var a := FirstNotIn(s, d);
    if a == |s| then Tok(None, [])
    else
      var t := s[a..];
      var b := FirstIn(t, d);
      if b == |t| then Tok(Some(t), [])
      else
        assert t[b + 1..] == s[|s| - |t[b + 1..]|..];
        Tok(Some(t[..b]), t[b + 1..])
  }

  /** Converse of `Strtok`'s contract: delimiters, then a non-empty token free
      of delimiters, then one delimiter (or the end) split exactly there. */
  lemma StrtokSplit(s: seq<Byte>, lead: seq<Byte>, tok: seq<Byte>, sep: seq<Byte>, rest: seq<Byte>, d: set<Byte>)
    requires s == lead + tok + sep + rest
    requires forall i | 0 <= i < |lead| :: lead[i] in d
    requires 0 < |tok| && forall i | 0 <= i < |tok| :: tok[i] !in d
    requires (sep == [] && rest == []) || (|sep| == 1 && sep[0] in d)
    ensures Strtok(s, d) == Tok(Some(tok), rest)
  {
    assert s[|lead|] == tok[0];
    assert forall i | 0 <= i < |lead| :: s[i] == lead[i];
    FirstNotInIs(s, d, |lead|);
    var t := s[|lead|..];
    assert t == tok + sep + rest;
    assert forall i | 0 <= i < |tok| :: t[i] == tok[i];
    if sep == [] {
      assert t == tok;
      FirstInIs(t, d, |tok|);
    } else {
      assert t[|tok|] == sep[0];
      FirstInIs(t, d, |tok|);
      assert t[..|tok|] == tok;
      assert t[|tok| + 1..] == rest;
    }
  }

  /** Length of the longest prefix of decimal digits. */
  function DigitPrefix(s: seq<Byte>): (k: nat)
    ensures k <= |s| && AllDigits(s[..k])
    ensures k < |s| ==> !IsDigit(s[k])
  {
    if |s| == 0 || !IsDigit(s[0]) then 0
    else
      var k := 1 + DigitPrefix(s[1..]);
      assert s[..k] == [s[0]] + s[1..][..k - 1];
      k
  }

  /** `DigitPrefix` is the unique length its contract describes. */
  lemma {:induction false} DigitPrefixIs(s: seq<Byte>, k: nat)
    requires k <= |s| && AllDigits(s[..k])
    requires k < |s| ==> !IsDigit(s[k])
    ensures DigitPrefix(s) == k
  {
    if k > 0 {
      assert IsDigit(s[..k][0]);
      assert s[1..][..k - 1] == s[..k][1..];
      DigitPrefixIs(s[1..], k - 1);
    }
  }

  /** The value of the leading digits of `s` (0 when there are none). */
  function LeadingNumber(s: seq<Byte>): nat
  {
    DecimalValue(s[..DigitPrefix(s)])
  }

  /** C `atoi` for values that fit in `int`: skip white space, take an
      optional sign, then read decimal digits up to the first non-digit. */
  function Atoi(s: seq<Byte>): int
  {
    var t := s[FirstNotIn(s, Spaces)..];
    if |t| > 0 && t[0] == '-' then -(LeadingNumber(t[1..]) as int)
    else if |t| > 0 && t[0] == '+' then LeadingNumber(t[1..])
    else LeadingNumber(t)
  }

  predicate FitsInt(v: int) {
    -0x8000_0000 <= v < 0x8000_0000
  }

  /** Conversion of an `int` to `uint8_t`: reduction modulo 2^8. */
  function ToU8(v: int): (b: U8)
    ensures 0 <= v < 256 ==> b == v
  {
    v % 256
  }

  /** The endpoint the C code assembles from six `atoi` values: each one
      truncated to 8 bits, the port as `(p1 << 8) | p2`. */
  function EndpointOf(v: seq<int>): (ep: Endpoint)
    requires |v| == 6
    ensures forall i | 0 <= i < 6 :: 0 <= v[i] < 256 ==>
      Octets(ep)[i] == v[i]
  {
    Endpoint(IPv4(ToU8(v[0]), ToU8(v[1]), ToU8(v[2]), ToU8(v[3])), ToU8(v[4]) * 256 + ToU8(v[5]))
  }

  /** The six numbers a server writes for an endpoint: the address bytes,
      then the port's high and low byte. */
  function Octets(ep: Endpoint): (ns: seq<nat>)
    ensures |ns| == 6 && forall i | 0 <= i < 6 :: ns[i] < 256
  {
    [ep.ip.a, ep.ip.b, ep.ip.c, ep.ip.d, ep.port / 256, ep.port % 256]
  }

  /** Up to `n` further `strtok(nullptr, ",")` tokens; the C loop returns on
      the first null pointer, so fewer than `n` means the decode failed. */
  function Fields(rest: seq<Byte>, n: nat): (f: seq<seq<Byte>>)
    ensures |f| <= n
    decreases n
  {
    if n == 0 then []
    else
      var t := Strtok(rest, Comma);
      if t.token.None? then []
      else [t.token.value] + Fields(t.rest, n - 1)
  }

  /** The tokens the C code hands to `atoi`: the description, cut at its NUL,
      tokenised once on "(" (that token is discarded) and then on ",". */
  function PasvTokens(desc: seq<Byte>): seq<seq<Byte>>
  {
    Fields(Strtok(CStr(desc), OpenParen).rest, 6)
  }

  /** `atoi` of each token, in order. */
  function Values(f: seq<seq<Byte>>): (v: seq<int>)
    ensures |v| == |f|
  {
    if |f| == 0 then [] else [Atoi(f[0])] + Values(f[1..])
  }

  /** `atoi` has defined behaviour on every token in `f`. */
  predicate AllFitInt(f: seq<seq<Byte>>) {
    forall i | 0 <= i < |f| :: FitsInt(Atoi(f[i]))
  }

  /** `atoi` has defined behaviour on every token the decoder reads. */
  predicate FieldsFitInt(desc: seq<Byte>) {
    AllFitInt(PasvTokens(desc))
  }

  /** The six `atoi` conversions and the assembly of the endpoint; `None`
      when the tokenizer ran out first. */
  function DecodeFields(f: seq<seq<Byte>>): (r: Option<Endpoint>)
    requires AllFitInt(f)
    ensures r.Some? <==> 6 <= |f|
  {
    if |f| < 6 then None
    else Some(EndpointOf(Values(f)[..6]))
  }

  /** The passive endpoint named by a PASV reply description, or None when
      fewer than six fields follow the "(" token. */
  function DecodePasv(desc: seq<Byte>): (r: Option<Endpoint>)
    requires FieldsFitInt(desc)
    ensures r.Some? <==> |PasvTokens(desc)| == 6
  {
    DecodeFields(PasvTokens(desc))
  }

  /** A description without "(" never yields an endpoint. */
  lemma NoParenRejected(desc: seq<Byte>)
    requires FieldsFitInt(desc)
    requires '(' !in CStr(desc)
    ensures DecodePasv(desc) == None
  {
    NoParenNoFields(CStr(desc));
    assert Strtok([], Comma).token.None?;
  }

  /** Without any "(" the first `strtok` swallows the whole string, so no
      field can follow. */
  lemma NoParenNoFields(s: seq<Byte>)
    requires '(' !in s
    ensures Strtok(s, OpenParen).rest == []
  {
    if 0 < |s| {
      assert s[0] in s;
      FirstNotInIs(s, OpenParen, 0);
      assert forall i | 0 <= i < |s| :: s[i] in s;
      FirstInIs(s, OpenParen, |s|);
      assert s[0..] == s;
    }
  }

  /** When the only "(" is the very first byte, `strtok` skips it as a leading
      delimiter and the first token already runs to the end: the reply is
      rejected even though it holds six fields. */
  lemma LeadingParenRejected(desc: seq<Byte>)
    requires FieldsFitInt(desc)
    requires var s := CStr(desc); 0 < |s| && s[0] == '(' && '(' !in s[1..]
    ensures DecodePasv(desc) == None
  {
    LeadingParenSwallows(CStr(desc));
    assert Strtok([], Comma).token.None?;
    assert PasvTokens(desc) == [];
  }

  /** The first `strtok` on "(" skips the leading "(" and returns the rest
      of the string as its token, leaving nothing behind. */
  lemma LeadingParenSwallows(s: seq<Byte>)
    requires 0 < |s| && s[0] == '(' && '(' !in s[1..]
    ensures Strtok(s, OpenParen).rest == []
  {
    var tail := s[1..];
    if |tail| == 0 {
      FirstNotInIs(s, OpenParen, 1);
    } else {
      assert s == [s[0]] + tail + [] + [];
      forall i | 0 <= i < |tail|
        ensures tail[i] !in OpenParen
      {
        assert tail[i] in tail;
      }
      StrtokSplit(s, [s[0]], tail, [], [], OpenParen);
    }
  }

  /** `atoi` reads back a decimal number followed by a non-digit. */
  lemma AtoiDec(n: nat, rest: seq<Byte>)
    requires rest == [] || !IsDigit(rest[0])
    ensures Atoi(Dec(n) + rest) == n
  {
    var s := Dec(n) + rest;
    assert IsDigit(s[0]);
    assert FirstNotIn(s, Spaces) == 0;
    LeadingDec(n, rest);
  }

  /** C `atoi` in full: leading white space is skipped, an optional sign is
      applied, and the digits up to the first non-digit give the value. */
  lemma AtoiSigned(ws: seq<Byte>, sign: seq<Byte>, n: nat, rest: seq<Byte>)
    requires forall i | 0 <= i < |ws| :: ws[i] in Spaces
    requires sign == [] || sign == ['-'] || sign == ['+']
    requires rest == [] || !IsDigit(rest[0])
    ensures Atoi(ws + sign + Dec(n) + rest) == if sign == ['-'] then -(n as int) else n
  {
    var body := Dec(n) + rest;
    Regroup(ws, sign, Dec(n), rest);
    assert IsDigit(body[0]);
    AtoiSkipsSpaces(ws, sign + body);
    AtoiSign(sign, body);
    LeadingDec(n, rest);
  }

  lemma Regroup(a: seq<Byte>, b: seq<Byte>, c: seq<Byte>, d: seq<Byte>)
    ensures a + b + c + d == a + (b + (c + d))
  {
  }

  /** Leading white space does not change what `atoi` reads. */
  lemma AtoiSkipsSpaces(ws: seq<Byte>, t: seq<Byte>)
    requires forall i | 0 <= i < |ws| :: ws[i] in Spaces
    requires 0 < |t| && t[0] !in Spaces
    ensures Atoi(ws + t) == Atoi(t)
  {
    forall i | 0 <= i < |ws|
      ensures (ws + t)[i] in Spaces
    {
      assert (ws + t)[i] == ws[i];
    }
    FirstNotInIs(ws + t, Spaces, |ws|);
    assert (ws + t)[|ws|..] == t;
    assert FirstNotIn(t, Spaces) == 0;
  }

  /** A sign in front of the digits negates (`-`) or keeps (`+`) the value. */
  lemma AtoiSign(sign: seq<Byte>, body: seq<Byte>)
    requires sign == [] || sign == ['-'] || sign == ['+']
    requires 0 < |body| && IsDigit(body[0])
    ensures Atoi(sign + body) == if sign == ['-'] then -(LeadingNumber(body) as int) else LeadingNumber(body)
  {
    var t := sign + body;
    assert FirstNotIn(t, Spaces) == 0;
    if sign == [] {
      assert t == body;
    } else {
      assert t[1..] == body;
    }
  }

  /** The leading number of a decimal rendering followed by a non-digit is
      the number rendered. */
  lemma LeadingDec(n: nat, rest: seq<Byte>)
    requires rest == [] || !IsDigit(rest[0])
    ensures LeadingNumber(Dec(n) + rest) == n
  {
    var s := Dec(n) + rest;
    var k := |Dec(n)|;
    assert forall i | 0 <= i < k :: s[i] == Dec(n)[i];
    assert k < |s| ==> !IsDigit(s[k]);
    DigitPrefixIs(s, k);
    assert s[..k] == Dec(n);
    DecRoundTrip(n);
  }

  /** Numbers separated by commas, the last one followed by `suffix`. */
  function CommaList(ns: seq<nat>, suffix: seq<Byte>): seq<Byte>
    requires 0 < |ns|
    decreases |ns|
  {
    if |ns| == 1 then Dec(ns[0]) + suffix
    else Dec(ns[0]) + [','] + CommaList(ns[1..], suffix)
  }

  lemma DecNoComma(n: nat)
    ensures forall i | 0 <= i < |Dec(n)| :: Dec(n)[i] !in Comma
  {
    forall i | 0 <= i < |Dec(n)|
      ensures Dec(n)[i] !in Comma
    {
      assert IsDigit(Dec(n)[i]);
    }
  }

  /** The last number of a comma list is one token: up to the next comma
      of the suffix, and `atoi` stops at the suffix's first byte. */
  lemma LastField(n: nat, suffix: seq<Byte>)
    requires suffix == [] || !IsDigit(suffix[0])
    ensures var f := Fields(Dec(n) + suffix, 1);
      |f| == 1 && Atoi(f[0]) == n
  {
    var k := FirstIn(suffix, Comma);
    var tok := Dec(n) + suffix[..k];
    LastToken(n, suffix);
    assert Strtok(Dec(n) + suffix, Comma).token == Some(tok);
    assert Fields(Dec(n) + suffix, 1) == [tok];
    AtoiDec(n, suffix[..k]);
  }

  /** The token of `Dec(n) + suffix` runs to the first comma of the suffix. */
  lemma LastToken(n: nat, suffix: seq<Byte>)
    ensures var k := FirstIn(suffix, Comma);
      Strtok(Dec(n) + suffix, Comma).token == Some(Dec(n) + suffix[..k])
  {
    var k := FirstIn(suffix, Comma);
    var tok := Dec(n) + suffix[..k];
    NoCommaToken(n, suffix, k);
    if k == |suffix| {
      assert suffix[..k] == suffix;
      StrtokSplit(Dec(n) + suffix, [], tok, [], [], Comma);
    } else {
      assert suffix == suffix[..k] + [suffix[k]] + suffix[k + 1..];
      StrtokSplit(Dec(n) + suffix, [], tok, [suffix[k]], suffix[k + 1..], Comma);
    }
  }

  /** A number followed by comma-free bytes contains no comma. */
  lemma NoCommaToken(n: nat, suffix: seq<Byte>, k: nat)
    requires k <= |suffix| && forall i | 0 <= i < k :: suffix[i] !in Comma
    ensures forall i | 0 <= i < |Dec(n) + suffix[..k]| :: (Dec(n) + suffix[..k])[i] !in Comma
  {
    DecNoComma(n);
  }

  /** A number followed by a comma is one token that `atoi` reads back. */
  lemma InnerField(n: nat, tail: seq<Byte>, m: nat)
    requires 0 < m
    ensures Fields(Dec(n) + [','] + tail, m) == [Dec(n)] + Fields(tail, m - 1)
    ensures Atoi(Dec(n)) == n
  {
    DecNoComma(n);
    StrtokSplit(Dec(n) + [','] + tail, [], Dec(n), [','], tail, Comma);
    AtoiDec(n, []);
    assert Dec(n) + [] == Dec(n);
  }

  /** Every token of `f` is read back by `atoi` as the matching number. */
  predicate ReadsBack(f: seq<seq<Byte>>, ns: seq<nat>)
  {
    |f| == |ns| && forall i | 0 <= i < |ns| :: Atoi(f[i]) == ns[i]
  }

  /** Tokenising a comma list on "," yields one token per number and `atoi`
      reads each number back. */
  lemma {:induction false} CommaListFields(ns: seq<nat>, suffix: seq<Byte>)
    requires 0 < |ns|
    requires suffix == [] || !IsDigit(suffix[0])
    ensures ReadsBack(Fields(CommaList(ns, suffix), |ns|), ns)
    decreases |ns|
  {
    if |ns| == 1 {
      CommaListOne(ns, suffix, |ns|);
    } else {
      CommaListFields(ns[1..], suffix);
      CommaListCons(ns, suffix, |ns|);
    }
  }

  lemma CommaListOne(ns: seq<nat>, suffix: seq<Byte>, m: nat)
    requires |ns| == 1 && m == 1
    requires suffix == [] || !IsDigit(suffix[0])
    ensures ReadsBack(Fields(CommaList(ns, suffix), m), ns)
  {
    assert CommaList(ns, suffix) == Dec(ns[0]) + suffix;
    LastField(ns[0], suffix);
  }

  lemma CommaListCons(ns: seq<nat>, suffix: seq<Byte>, m: nat)
    requires 1 < |ns| && m == |ns|
    requires ReadsBack(Fields(CommaList(ns[1..], suffix), m - 1), ns[1..])
    ensures ReadsBack(Fields(CommaList(ns, suffix), m), ns)
  {
    var tail := CommaList(ns[1..], suffix);
    assert CommaList(ns, suffix) == Dec(ns[0]) + [','] + tail;
    InnerField(ns[0], tail, m);
    ReadsBackCons(Dec(ns[0]), Fields(tail, m - 1), ns);
  }

  /** A token that reads back as the first number, in front of tokens that
      read back as the rest. */
  lemma ReadsBackCons(a: seq<Byte>, g: seq<seq<Byte>>, ns: seq<nat>)
    requires 0 < |ns| && Atoi(a) == ns[0]
    requires ReadsBack(g, ns[1..])
    ensures ReadsBack([a] + g, ns)
  {
    var f := [a] + g;
    forall i | 0 <= i < |ns|
      ensures Atoi(f[i]) == ns[i]
    {
      if i > 0 { assert f[i] == g[i - 1] && ns[i] == ns[1..][i - 1]; }
    }
  }

  /** A PASV description as servers write it: text, "(", six comma-separated
      numbers, then whatever follows (typically ")."). */
  function FormatFields(prefix: seq<Byte>, ns: seq<nat>, suffix: seq<Byte>): seq<Byte>
    requires |ns| == 6
  {
    prefix + ['('] + CommaList(ns, suffix)
  }

  lemma CommaListNoNul(ns: seq<nat>, suffix: seq<Byte>)
    requires 0 < |ns| && NUL !in suffix
    ensures NUL !in CommaList(ns, suffix)
    decreases |ns|
  {
    assert forall j | 0 <= j < |Dec(ns[0])| :: Dec(ns[0])[j] != NUL;
    if |ns| > 1 {
      CommaListNoNul(ns[1..], suffix);
    }
  }

  /** Decoding six numbers that fit in `int`: each field is the number
      truncated to 8 bits and the port is `field5 * 256 + field6`. */
  lemma FieldsDecode(prefix: seq<Byte>, ns: seq<nat>, suffix: seq<Byte>)
    requires |ns| == 6 && forall i | 0 <= i < 6 :: ns[i] < 0x8000_0000
    requires 0 < |prefix| && '(' !in prefix && NUL !in prefix && NUL !in suffix
    requires suffix == [] || !IsDigit(suffix[0])
    ensures var desc := FormatFields(prefix, ns, suffix);
      && FieldsFitInt(desc)
      && DecodePasv(desc) == Some(EndpointOf(ns))
  {
    FormatTokens(prefix, ns, suffix);
    DecodeReadsBack(FormatFields(prefix, ns, suffix), ns);
  }

  /** The tokens of a formatted description are the formatted numbers. */
  lemma FormatTokens(prefix: seq<Byte>, ns: seq<nat>, suffix: seq<Byte>)
    requires |ns| == 6
    requires 0 < |prefix| && '(' !in prefix && NUL !in prefix && NUL !in suffix
    requires suffix == [] || !IsDigit(suffix[0])
    ensures ReadsBack(PasvTokens(FormatFields(prefix, ns, suffix)), ns)
  {
    var desc := FormatFields(prefix, ns, suffix);
    var body := CommaList(ns, suffix);
    CommaListNoNul(ns, suffix);
    assert NUL !in desc;
    assert CStr(desc) == desc;
    forall i | 0 <= i < |prefix|
      ensures prefix[i] !in OpenParen
    {
      assert prefix[i] in prefix;
    }
    StrtokSplit(desc, [], prefix, ['('], body, OpenParen);
    CommaListFields(ns, suffix);
    assert PasvTokens(desc) == Fields(body, |ns|);
  }

  /** Six tokens that `atoi` reads as numbers within `int` decode to those
      numbers truncated to 8 bits. */
  lemma DecodeReadsBack(desc: seq<Byte>, ns: seq<nat>)
    requires |ns| == 6 && forall i | 0 <= i < 6 :: ns[i] < 0x8000_0000
    requires ReadsBack(PasvTokens(desc), ns)
    ensures FieldsFitInt(desc)
    ensures DecodePasv(desc) == Some(EndpointOf(ns))
  {
    FieldsReadBack(PasvTokens(desc), ns);
  }

  /** Six tokens read back as numbers within `int` assemble to the endpoint
      of those numbers. */
  lemma FieldsReadBack(f: seq<seq<Byte>>, ns: seq<nat>)
    requires |ns| == 6 && forall i | 0 <= i < 6 :: ns[i] < 0x8000_0000
    requires ReadsBack(f, ns)
    ensures AllFitInt(f)
    ensures DecodeFields(f) == Some(EndpointOf(ns))
  {
    forall i | 0 <= i < 6
      ensures Values(f)[i] == ns[i]
    {
      ValuesAt(f, i);
    }
    assert Values(f)[..6] == ns;
  }

  lemma {:induction false} ValuesAt(f: seq<seq<Byte>>, i: nat)
    requires i < |f|
    ensures Values(f)[i] == Atoi(f[i])
  {
    if i > 0 {
      ValuesAt(f[1..], i - 1);
    }
  }

  /** Round trip: an endpoint written into a PASV description is decoded back. */
  lemma PasvRoundTrip(prefix: seq<Byte>, ep: Endpoint, suffix: seq<Byte>)
    requires 0 < |prefix| && '(' !in prefix && NUL !in prefix && NUL !in suffix
    requires suffix == [] || !IsDigit(suffix[0])
    ensures var desc := FormatFields(prefix, Octets(ep), suffix);
      FieldsFitInt(desc) && DecodePasv(desc) == Some(ep)
  {
    FieldsDecode(prefix, Octets(ep), suffix);
    SplitPort(ep);
  }

  /** The six numbers of an endpoint survive the 8-bit truncation. */
  lemma SplitPort(ep: Endpoint)
    ensures EndpointOf(Octets(ep)) == ep
  {
  }

  /** The reply text most servers send decodes to 192.168.1.5, port 5000;
      the closing ")." after the last field is ignored by `atoi`. */
  lemma PasvExample(desc: seq<Byte>)
    requires desc == "Entering Passive Mode (192,168,1,5,19,136)."
    ensures FieldsFitInt(desc)
    ensures DecodePasv(desc) == Some(Endpoint(IPv4(192, 168, 1, 5), 5000))
  {
    var ep := Endpoint(IPv4(192, 168, 1, 5), 5000);
    var prefix: seq<Byte> := "Entering Passive Mode ";
    var suffix: seq<Byte> := ").";
    ExampleText(prefix, ep, suffix);
    PasvRoundTrip(prefix, ep, suffix);
  }

  /** The example text is a formatted description. The literal is expanded
      in small steps, one field per lemma, to keep each proof cheap. */
  lemma ExampleText(prefix: seq<Byte>, ep: Endpoint, suffix: seq<Byte>)
    requires prefix == "Entering Passive Mode " && suffix == ")."
    requires ep == Endpoint(IPv4(192, 168, 1, 5), 5000)
    ensures 0 < |prefix| && '(' !in prefix && NUL !in prefix && NUL !in suffix
    ensures suffix == [] || !IsDigit(suffix[0])
    ensures FormatFields(prefix, Octets(ep), suffix) == "Entering Passive Mode (192,168,1,5,19,136)."
  {
    ExamplePrefix(prefix);
    ExampleOctets(ep);
    ExampleFields(Octets(ep), suffix);
    ExampleJoin(prefix, "192,168,1,5,19,136).");
  }

  lemma ExamplePrefix(prefix: seq<Byte>)
    requires prefix == "Entering Passive Mode "
    ensures '(' !in prefix && NUL !in prefix
  {
  }

  lemma ExampleOctets(ep: Endpoint)
    requires ep == Endpoint(IPv4(192, 168, 1, 5), 5000)
    ensures Octets(ep) == [192, 168, 1, 5, 19, 136]
  {
  }

  lemma ExampleJoin(prefix: seq<Byte>, body: seq<Byte>)
    requires prefix == "Entering Passive Mode " && body == "192,168,1,5,19,136)."
    ensures prefix + ['('] + body == "Entering Passive Mode (192,168,1,5,19,136)."
  {
  }

  lemma ExampleFields(ns: seq<nat>, suffix: seq<Byte>)
    requires ns == [192, 168, 1, 5, 19, 136] && suffix == ")."
    ensures CommaList(ns, suffix) == "192,168,1,5,19,136)."
  {
    ExampleMiddle(ns[1..], suffix);
    assert Dec(192) == "192";
  }

  lemma ExampleMiddle(ns: seq<nat>, suffix: seq<Byte>)
    requires ns == [168, 1, 5, 19, 136] && suffix == ")."
    ensures CommaList(ns, suffix) == "168,1,5,19,136)."
  {
    ExampleFour(ns[1..], suffix);
    assert Dec(168) == "168";
  }

  lemma ExampleFour(ns: seq<nat>, suffix: seq<Byte>)
    requires ns == [1, 5, 19, 136] && suffix == ")."
    ensures CommaList(ns, suffix) == "1,5,19,136)."
  {
    ExampleTail(ns[1..], suffix);
    assert Dec(1) == "1";
  }

  lemma ExampleTail(ns: seq<nat>, suffix: seq<Byte>)
    requires ns == [5, 19, 136] && suffix == ")."
    ensures CommaList(ns, suffix) == "5,19,136)."
  {
    assert Dec(5) == "5" && Dec(19) == "19" && Dec(136) == "136";
    assert CommaList(ns[2..], suffix) == "136).";
    assert CommaList(ns[1..], suffix) == "19,136).";
  }
}

=== FILE: pump.dfy ===
/** The receive pump of `FTP::retrieve`.

    While the data channel is connected, the stall timer has not expired and
    the buffer still has room, the loop reads whatever is available, capped
    at the remaining capacity. Wall-clock polling is replaced by a script of
    what each iteration observes: some bytes (possibly none, an idle poll),
    the peer having closed the channel, or the stall timeout expiring. */
module Pump {
  import opened Base

  datatype Chunk =
    | Avail(data: seq<Byte>)   // `dClient.available()` bytes are ready (none: `delay(1)`)
    | Closed                   // `dClient.connected()` is false
    | Stalled                  // no byte for the whole stall timeout

  /** Every byte the data channel offers before it closes or stalls. A
      script that runs out behaves like a stall: nothing more arrives. */
  function Delivered(events: seq<Chunk>): (d: seq<Byte>)
  {
    if |events| == 0 then []
    else match events[0]
      case Avail(data) => data + Delivered(events[1..])
      case Closed => []
      case Stalled => []
  }

  function Min(a: nat, b: nat): nat {
    if a < b then a else b
  }

  /** What ends up in the buffer: the first `size` delivered bytes, or all of
      them if fewer arrive. */
  function Pumped(events: seq<Chunk>, size: nat): (d: seq<Byte>)
    ensures |d| <= size
    ensures |d| <= |Delivered(events)|
    ensures d == Delivered(events)[..|d|]
    ensures |d| == size || d == Delivered(events)
  {
    var all := Delivered(events);
    all[..Min(|all|, size)]
  }

  predicate AllAvail(events: seq<Chunk>) {
    forall j | 0 <= j < |events| :: events[j].Avail?
  }

  /** Delivery over a prefix of data events extends by concatenation. */
  lemma {:induction false} DeliveredAppend(a: seq<Chunk>, b: seq<Chunk>)
    requires AllAvail(a)
    ensures Delivered(a + b) == Delivered(a) + Delivered(b)
  {
    if |a| > 0 {
      assert (a + b)[1..] == a[1..] + b;
      assert AllAvail(a[1..]);
      DeliveredAppend(a[1..], b);
    } else {
      assert a + b == b;
    }
  }

  /** The loop of `retrieve` between the 150 reply and `dClient.stop()`.
      Each read takes `min(available, remaining)` bytes, so the buffer never
      receives more than `size` bytes, and it receives exactly what the
      channel delivered, in order. */
  method ReceivePump(events: seq<Chunk>, size: nat) returns (data: seq<Byte>)
    ensures |data| <= size
    ensures data == Pumped(events, size)
  {
    data := [];
    var remaining: nat := size;
    var connected := true;
    var i := 0;
    while connected && remaining > 0 && i < |events|
      invariant 0 <= i <= |events|
      invariant |data| + remaining == size
      invariant |data| <= |Delivered(events)| && data == Delivered(events)[..|data|]
      invariant connected && remaining > 0 ==> AllAvail(events[..i]) && data == Delivered(events[..i])
      invariant !connected ==> data == Delivered(events)
      decreases |events| - i
    {
      assert events == events[..i] + events[i..];
      DeliveredAppend(events[..i], events[i..]);
      if events[i].Avail? {
        var bytes := events[i].data;
        var len := |bytes|;
        if len > remaining {
          len := remaining;
        }
        assert Delivered(events[i..]) == bytes + Delivered(events[i + 1..]);
        data := data + bytes[..len];
        remaining := remaining - len;
        assert events[..i + 1] == events[..i] + [events[i]];
        DeliveredAppend(events[..i], [events[i]]);
        assert Delivered([events[i]]) == bytes;
      } else {
        connected := false;
      }
      i := i + 1;
    }
    if connected && remaining > 0 {
      assert events[..i] == events;
    }
  }
}

=== FILE: reply_reader.dfy ===
/** The control-channel reply reader (`FTP::waitServerCode(char *desc)`).

    The reader polls the control channel until a deadline and consumes bytes
    one at a time: bytes before the first space build the numeric code, CR is
    dropped everywhere, the first LF ends the line, and bytes after the first
    space go to the description. Time is abstracted away: the input is the
    sequence of bytes that can be read before the deadline, and everything
    after the first LF is left in the channel for the next reply. Multi-line
    replies (section 4.2 of RFC 959) get no special treatment. */
module ReplyReader {
  import opened Base

  /** One parsed reply: the 16-bit code, the description bytes (without the
      NUL the C code appends) and how many bytes were taken off the channel. */
  datatype Reply = Reply(code: U16, desc: seq<Byte>, consumed: nat)

  /** `s` with every CR removed. */
  function DropCR(s: seq<Byte>): (t: seq<Byte>)
    ensures CR !in t
    ensures |t| <= |s|
  {
    if |s| == 0 then []
    else DropCR(s[..|s| - 1]) + (if s[|s| - 1] == CR then [] else [s[|s| - 1]])
  }

  /** The code the C loop accumulates over `h`: `code = code * 10 + (c - '0')`
      in `uint16_t`, for every byte, digit or not. */
  function CodeOf(h: seq<Byte>): U16
  {
    if |h| == 0 then 0
    else (CodeOf(h[..|h| - 1]) * 10 + (h[|h| - 1] as int - '0' as int)) % 65536
  }

  /** The reply read from `input`: the line is everything before the first LF
      with CR removed; the code is built from the bytes before the first space
      of that line and the description is everything after that space. */
  function ReplyOf(input: seq<Byte>): (r: Reply)
    ensures r.consumed <= |input|
    ensures LF !in input ==> r.consumed == |input|
    ensures LF in input ==> 0 < r.consumed && input[r.consumed - 1] == LF && LF !in input[..r.consumed - 1]
    ensures CR !in r.desc && LF !in r.desc
    ensures r.desc == [] || |r.desc| < r.consumed
    ensures |input| == 0 ==> r.code == 0 && r.desc == [] && r.consumed == 0
  {
    var e := IndexOf(input, LF);
    var line := DropCR(input[..e]);
    assert LF !in line by { DropCRKeeps(input[..e], LF); }
    var sp := IndexOf(line, SP);
    Reply(CodeOf(line[..sp]),
          if sp < |line| then line[sp + 1..] else [],
          if e < |input| then e + 1 else e)
  }

  lemma {:induction false} DropCRKeeps(s: seq<Byte>, b: Byte)
    requires b !in s
    ensures b !in DropCR(s)
  {
    if |s| > 0 {
      assert b !in s[..|s| - 1];
      DropCRKeeps(s[..|s| - 1], b);
    }
  }

  lemma {:induction false} DropCRIdentity(s: seq<Byte>)
    requires CR !in s
    ensures DropCR(s) == s
  {
    if |s| > 0 {
      assert CR !in s[..|s| - 1];
      DropCRIdentity(s[..|s| - 1]);
    }
  }

  /** On a line of decimal digits the accumulated code is the decimal value
      of the digits, reduced modulo 2^16. */
  lemma {:induction false} CodeOfDigits(d: seq<Byte>)
    requires AllDigits(d)
    ensures CodeOf(d) == DecimalValue(d) % 65536
  {
    if |d| > 0 {
      var p := d[..|d| - 1];
      assert AllDigits(p);
      CodeOfDigits(p);
      var x := DigitValue(d[|d| - 1]);
      assert DecimalValue(d) == DecimalValue(p) * 10 + x;
      ShiftMod(DecimalValue(p), x);
    }
  }

  /** Reducing modulo 2^16 before a decimal shift changes nothing after it. */
  lemma ShiftMod(v: nat, x: nat)
    ensures ((v % 65536) * 10 + x) % 65536 == (v * 10 + x) % 65536
  {
    var q := v / 65536;
    var r := v % 65536;
    assert v * 10 + x == (r * 10 + x) + (q * 10) * 65536;
  }

  /** The state the C loop holds once it has scanned `line` (CR removed, no LF
      yet): the code, whether the first space was seen, the description. */
  predicate Scanned(line: seq<Byte>, code: int, ready: bool, desc: seq<Byte>)
  {
    var sp := IndexOf(line, SP);
    && code == CodeOf(line[..sp])
    && ready == (sp < |line|)
    && desc == (if sp < |line| then line[sp + 1..] else [])
  }

  /** One iteration of the C loop on a byte that is neither CR nor LF. */
  lemma ScanStep(line: seq<Byte>, code: int, ready: bool, desc: seq<Byte>, c: Byte)
    requires Scanned(line, code, ready, desc)
    requires c != CR && c != LF
    ensures Scanned(line + [c],
                    if !ready && c != SP then (code * 10 + (c as int - '0' as int)) % 65536 else code,
                    ready || c == SP,
                    if ready then desc + [c] else desc)
  {
    var l2 := line + [c];
    var sp := IndexOf(line, SP);
    var sp2 := IndexOf(l2, SP);
    if sp < |line| {
      assert l2[sp] == SP;
      assert sp2 == sp;
      assert l2[..sp2] == line[..sp];
      assert l2[sp2 + 1..] == line[sp + 1..] + [c];
    } else if c == SP {
      assert line[..sp] == line;
      assert sp2 == |line|;
      assert l2[..sp2] == line;
    } else {
      assert sp2 == |l2|;
      assert l2[..sp2] == l2;
      assert l2[..|l2| - 1] == line;
      assert line[..sp] == line;
    }
  }

  /** The C loop of `waitServerCode`, byte by byte, with the deadline already
      folded into `input`. It computes exactly `ReplyOf`. */
  method ReadReply(input: seq<Byte>) returns (code: U16, desc: seq<Byte>, consumed: nat)
    ensures Reply(code, desc, consumed) == ReplyOf(input)
  {
    code := 0;
    desc := [];
    var ready := false;
    var c: Byte := NUL;
    var i := 0;
    ghost var line: seq<Byte> := [];
    while i < |input| && c != LF
      invariant 0 <= i <= |input|
      invariant c != LF ==> i <= IndexOf(input, LF) && line == DropCR(input[..i])
      invariant c == LF ==> 0 < i && i - 1 == IndexOf(input, LF) && line == DropCR(input[..i - 1])
      invariant Scanned(line, code, ready, desc)
    {
      c := input[i];
      ReadAdvance(input, i, line);
      if c != CR && c != LF {
        code, ready, desc := Feed(line, code, ready, desc, c);
        line := line + [c];
      }
      i := i + 1;
    }
    consumed := i;
    if c == LF {
      ReplyOfIs(input, i - 1, line);
    } else {
      assert input[..i] == input;
      ReplyOfIs(input, i, line);
    }
  }

  /** The branches of the C loop for a byte that is neither CR nor LF:
      before the first space it is a code digit (the space itself only
      switches to the description), after it a description byte. */
  method Feed(ghost line: seq<Byte>, code: U16, ready: bool, desc: seq<Byte>, c: Byte)
    returns (code': U16, ready': bool, desc': seq<Byte>)
    requires Scanned(line, code, ready, desc)
    requires c != CR && c != LF
    ensures Scanned(line + [c], code', ready', desc')
  {
    code', ready', desc' := code, ready, desc;
    if !ready {
      if c == SP {
        ready' := true;
      } else {
        code' := (code * 10 + (c as int - '0' as int)) % 65536;
      }
    } else {
      desc' := desc + [c];
    }
    ScanStep(line, code, ready, desc, c);
  }

  /** Reading one more byte before the first LF: the line grows by that byte
      unless it is a CR; reading the LF itself locates it. */
  lemma ReadAdvance(input: seq<Byte>, i: nat, line: seq<Byte>)
    requires i < |input| && i <= IndexOf(input, LF) && line == DropCR(input[..i])
    ensures input[i] == LF ==> i == IndexOf(input, LF)
    ensures input[i] != LF ==>
      && i + 1 <= IndexOf(input, LF)
      && DropCR(input[..i + 1]) == if input[i] == CR then line else line + [input[i]]
  {
    assert input[..i + 1][..i] == input[..i];
  }

  /** Three decimal digits, as a server writes a reply code. */
  function ThreeDigits(code: nat): (s: seq<Byte>)
    requires code < 1000
    ensures |s| == 3 && AllDigits(s) && DecimalValue(s) == code
  {
    var s := [DigitChar(code / 100), DigitChar(code / 10 % 10), DigitChar(code % 10)];
    assert s[..2][..1] == [s[0]] && [s[0]][..0] == [] && s[..3] == s;
    assert DecimalValue(s[..1]) == code / 100;
    assert DecimalValue(s[..2]) == code / 100 * 10 + code / 10 % 10;
    s
  }

  /** A one-line reply as section 4.2 of RFC 959 lays it out: code, space, text, CRLF. */
  function FormatReply(code: nat, text: seq<Byte>): seq<Byte>
    requires code < 1000
  {
    ThreeDigits(code) + [SP] + text + [CR, LF]
  }

  /** A line of digits, a space, text and CRLF yields the digits' value modulo
      2^16 as code and exactly the text as description; nothing after the LF
      is consumed. */
  lemma DecimalLine(d: seq<Byte>, text: seq<Byte>, rest: seq<Byte>)
    requires AllDigits(d)
    requires CR !in text && LF !in text
    ensures ReplyOf(d + [SP] + text + [CR, LF] + rest) == Reply(DecimalValue(d) % 65536, text, |d| + |text| + 3)
  {
    var body := d + [SP] + text;
    assert d + [SP] + text + [CR, LF] + rest == body + [CR, LF] + rest;
    LineBody(d, text);
    CRLFLine(body, rest);
    CodeOfDigits(d);
  }

  /** A line ended by CRLF is read as its own text: the bytes after the LF
      stay unconsumed. */
  lemma CRLFLine(body: seq<Byte>, rest: seq<Byte>)
    requires LF !in body && CR !in body
    ensures var sp := IndexOf(body, SP);
      ReplyOf(body + [CR, LF] + rest)
      == Reply(CodeOf(body[..sp]), if sp < |body| then body[sp + 1..] else [], |body| + 2)
  {
    var input := body + [CR, LF] + rest;
    LineEnd(body, rest);
    assert input[..|body| + 1] == body + [CR];
    assert (body + [CR])[..|body|] == body;
    DropCRIdentity(body);
    assert DropCR(body + [CR]) == body;
    ReplyOfIs(input, |body| + 1, body);
  }

  /** `ReplyOf` unfolded once, for a known line end and line. */
  lemma ReplyOfIs(input: seq<Byte>, e: nat, line: seq<Byte>)
    requires e == IndexOf(input, LF) && line == DropCR(input[..e])
    ensures var sp := IndexOf(line, SP);
      ReplyOf(input) == Reply(CodeOf(line[..sp]), if sp < |line| then line[sp + 1..] else [], if e < |input| then e + 1 else e)
  {
  }

  /** The first LF of `body + CRLF + rest` is the one right after `body`. */
  lemma LineEnd(body: seq<Byte>, rest: seq<Byte>)
    requires LF !in body
    ensures IndexOf(body + [CR, LF] + rest, LF) == |body| + 1
  {
    var input := body + [CR, LF] + rest;
    assert input[|body| + 1] == LF;
    forall i | 0 <= i < |body| + 1
      ensures input[i] != LF
    {
      if i < |body| { assert input[i] == body[i]; }
    }
  }

  /** Removing the trailing CR of a digits-space-text line gives the line
      back, and its first space is the one after the digits. */
  lemma LineBody(d: seq<Byte>, text: seq<Byte>)
    requires AllDigits(d)
    requires CR !in text && LF !in text
    ensures var body := d + [SP] + text;
      && LF !in body && CR !in body
      && IndexOf(body, SP) == |d|
      && body[..|d|] == d
      && body[|d| + 1..] == text
  {
    var body := d + [SP] + text;
    forall i | 0 <= i < |body|
      ensures body[i] != CR && body[i] != LF
    {
      if i < |d| { assert IsDigit(d[i]); }
      else if i > |d| { assert body[i] == text[i - |d| - 1]; }
    }
    forall i | 0 <= i < |d|
      ensures body[i] != SP
    {
      assert IsDigit(d[i]);
    }
    assert body[|d|] == SP;
  }

  /** Round trip: formatting a reply and reading it back gives the same code
      and text, and the reader stops right after the CRLF. */
  lemma FormatReplyRoundTrip(code: nat, text: seq<Byte>, rest: seq<Byte>)
    requires code < 1000
    requires CR !in text && LF !in text
    ensures ReplyOf(FormatReply(code, text) + rest) == Reply(code, text, |FormatReply(code, text)|)
  {
    DecimalLine(ThreeDigits(code), text, rest);
  }
}

=== FILE: scenarios.dfy ===
/** The session driven by the bytes a server actually sends: the replies
    `connect` reads are those `Control.Script` derives from the control
    stream. */
module Scenarios {
  import opened Base
  import opened ReplyReader
  import opened Control
  import opened Session

  /** A fresh session whose control channel will deliver the bytes of `c`. */
  function Fresh(c: ControlStream, n: nat): (s: State)
    ensures |s.replies| == n && !s.controlOpen && !s.dataOpen
  {
    State(Script(c, n), false, false)
  }

  /** The `k`-th expected reply carries the `k`-th line's code. */
  lemma {:induction false} ExpectedAt(ls: seq<Line>, k: nat)
    requires ValidLines(ls) && k < |ls|
    ensures Expected(ls)[k].code == ls[k].code
  {
    if k > 0 {
      assert ValidLines(ls[1..]);
      ExpectedAt(ls[1..], k - 1);
    }
  }

  /** `connect` over the wire: when the server has sent two or more
      well-formed one-line replies, the login succeeds exactly when the
      first is 220 and the second 230, or the second is 331, a password is
      given and a third reply, 230, was sent. */
  lemma ConnectOverWire(ls: seq<Line>, ip: IPv4, port: U16, user: Option<seq<Byte>>, password: Option<seq<Byte>>, reachable: bool)
    requires ValidLines(ls) && 2 <= |ls|
    ensures var r := Connect(Fresh(ControlStream(Transcript(ls), []), |ls|), ip, port, user, password, reachable);
      r.value == 1 <==>
        && user.Some? && reachable && ls[0].code == 220
        && (ls[1].code == 230 || (ls[1].code == 331 && password.Some? && 3 <= |ls| && ls[2].code == 230))
  {
    var s := Fresh(ControlStream(Transcript(ls), []), |ls|);
    WireCodes(ls, s);
    var c2 := if 3 <= |ls| then ls[2].code else 0;
    ConnectByCodes(s, ls[0].code, ls[1].code, c2, ip, port, user, password, reachable);
  }

  /** The replies of a fresh session carry the lines' codes; a wait past
      the last line reads code 0. */
  lemma WireCodes(ls: seq<Line>, s: State)
    requires ValidLines(ls) && 2 <= |ls|
    requires s == Fresh(ControlStream(Transcript(ls), []), |ls|)
    ensures ReplyAt(s, 0).code == ls[0].code && ReplyAt(s, 1).code == ls[1].code
    ensures ReplyAt(s, 2).code == if 3 <= |ls| then ls[2].code else 0
  {
    BufferedReplies(ls);
    ExpectedCodes(ls, s.replies);
  }

  lemma ExpectedCodes(ls: seq<Line>, rs: seq<Reply>)
    requires ValidLines(ls) && 2 <= |ls|
    requires rs == Expected(ls)
    ensures rs[0].code == ls[0].code && rs[1].code == ls[1].code
    ensures 3 <= |ls| ==> rs[2].code == ls[2].code
  {
    ExpectedAt(ls, 0);
    ExpectedAt(ls, 1);
    if 3 <= |ls| {
      ExpectedAt(ls, 2);
    }
  }

  /** `connect` depends on the replies only through their codes. */
  lemma ConnectByCodes(s: State, c0: int, c1: int, c2: int, ip: IPv4, port: U16, user: Option<seq<Byte>>, password: Option<seq<Byte>>, reachable: bool)
    requires ReplyAt(s, 0).code == c0 && ReplyAt(s, 1).code == c1 && ReplyAt(s, 2).code == c2
    ensures Connect(s, ip, port, user, password, reachable).value == 1 <==>
      user.Some? && reachable && c0 == 220 && (c1 == 230 || (c1 == 331 && password.Some? && c2 == 230))
  {
  }

  /** A multi-line greeting (section 4.2 of RFC 959) is read as one line
      without a space: every byte of "220-Welcome" goes into the code, which
      is then not 220, so `connect` stops the control channel and fails. */
  lemma MultiLineGreetingRejected(rest: seq<Byte>, ip: IPv4, port: U16, user: seq<Byte>, password: Option<seq<Byte>>)
    ensures var c := ControlStream("220-Welcome" + [CR, LF] + rest, []);
      var r := Connect(Fresh(c, 3), ip, port, Some(user), password, true);
      r.value == 0 && !r.after.controlOpen
  {
    var body: seq<Byte> := "220-Welcome";
    var c := ControlStream(body + [CR, LF] + rest, []);
    var s := Fresh(c, 3);
    GreetingFirstCode(body, rest, c, s);
    GreetingRejected(s, ip, port, user, password);
  }

  /** The code read for the greeting line "220-Welcome". */
  lemma GreetingFirstCode(body: seq<Byte>, rest: seq<Byte>, c: ControlStream, s: State)
    requires body == "220-Welcome" && c == ControlStream(body + [CR, LF] + rest, [])
    requires s == Fresh(c, 3)
    ensures ReplyAt(s, 0).code == 39307
  {
    ScriptHead(c, s);
    GreetingLine(body);
    GreetingCode(body);
    SpaceFreeLine(body, rest);
  }

  /** The first reply of a fresh session is read from the first window. */
  lemma ScriptHead(c: ControlStream, s: State)
    requires s == Fresh(c, 3)
    ensures ReplyAt(s, 0) == ReplyOf(Window(c))
  {
  }

  /** A space-free line ended by CRLF yields the code accumulated over the
      whole line. */
  lemma SpaceFreeLine(body: seq<Byte>, rest: seq<Byte>)
    requires LF !in body && CR !in body && IndexOf(body, SP) == |body|
    ensures ReplyOf(body + [CR, LF] + rest).code == CodeOf(body)
  {
    CRLFLine(body, rest);
    assert body[..|body|] == body;
  }

  /** Any greeting other than 220 makes `connect` fail with the control
      channel stopped. */
  lemma GreetingRejected(s: State, ip: IPv4, port: U16, user: seq<Byte>, password: Option<seq<Byte>>)
    requires ReplyAt(s, 0).code != 220
    ensures var r := Connect(s, ip, port, Some(user), password, true);
      r.value == 0 && !r.after.controlOpen
  {
  }

  lemma GreetingLine(body: seq<Byte>)
    requires body == "220-Welcome"
    ensures LF !in body && CR !in body && IndexOf(body, SP) == |body|
  {
  }

  /** One more byte of code: the C loop's `code = code * 10 + (c - '0')`. */
  lemma CodeOfPrefix(h: seq<Byte>, k: nat)
    requires 0 < k <= |h|
    ensures CodeOf(h[..k]) == (CodeOf(h[..k - 1]) * 10 + (h[k - 1] as int - '0' as int)) % 65536
  {
    assert h[..k][..k - 1] == h[..k - 1];
  }

  /** `CodeOfPrefix` with the code before and after the byte named. */
  lemma CodeStep(h: seq<Byte>, k: nat, before: int, after: int)
    requires 0 < k <= |h| && CodeOf(h[..k - 1]) == before
    requires after == (before * 10 + (h[k - 1] as int - '0' as int)) % 65536
    ensures CodeOf(h[..k]) == after
  {
    CodeOfPrefix(h, k);
  }

  lemma GreetingCode(body: seq<Byte>)
    requires body == "220-Welcome"
    ensures CodeOf(body) == 39307
  {
    GreetingHead(body);
    CodeStep(body, 7, 23535, 38802);
    CodeStep(body, 8, 38802, 60391);
    CodeStep(body, 9, 60391, 14149);
    CodeStep(body, 10, 14149, 10479);
    CodeStep(body, 11, 10479, 39307);
    assert body[..11] == body;
  }

  lemma GreetingHead(body: seq<Byte>)
    requires body == "220-Welcome"
    ensures CodeOf(body[..6]) == 23535
  {
    assert body[..0] == [];
    CodeStep(body, 1, 0, 2);
    CodeStep(body, 2, 2, 22);
    CodeStep(body, 3, 22, 220);
    CodeStep(body, 4, 220, 2197);
    CodeStep(body, 5, 2197, 22009);
    CodeStep(body, 6, 22009, 23535);
  }
}

=== FILE: session.dfy ===
/** The client session: `connect`, `beginTransaction`, `retrieve` and
    `store` of `FTP`, as functions from a session state and the scripted
    behaviour of the peers to a result, the next state and the events the
    call caused.

    The control channel is represented by the replies the client will read
    from it, in order (`Control.Script` derives them from the bytes). The
    data channel's behaviour, whether it connects, what it delivers and how
    much it accepts, is passed in. */
module Session {
  import opened Base
  import opened ReplyReader
  import opened Pasv
  import opened Commands
  import opened Pump

  datatype Event =
    | ControlConnect(ip: IPv4, port: U16)   // `cClient.connect(ip, port)`
    | ControlStop                           // `cClient.stop()`
    | Sent(cmd: Command)                    // a command line on the control channel
    | Received(code: U16)                   // a reply read by `waitServerCode`
    | DataConnect(ep: Endpoint)             // `dClient.connect(address, port)`
    | DataWrite(bytes: seq<Byte>)           // `dClient.write`, the bytes it took
    | DataStop                              // `dClient.stop()`

  /** The replies still to be read on the control channel and whether each
      channel is open. */
  datatype State = State(replies: seq<Reply>, controlOpen: bool, dataOpen: bool)

  /** An `int`/`size_t` result, the state it leaves behind and the events it
      caused, in order. */
  datatype Step = Step(value: nat, after: State, trace: seq<Event>)

  /** The result of `retrieve`: the returned count, the bytes written into
      the caller's buffer, the state it leaves behind and its events. */
  datatype Transfer = Transfer(count: nat, buffer: seq<Byte>, after: State, trace: seq<Event>)

  /** What a wait reads when the server sends nothing before the deadline:
      code 0 and an empty description, as `ReplyOf([])`. */
  const Silence := Reply(0, [], 0)

  /** The `k`-th reply (from 0) still to be read. */
  function ReplyAt(s: State, k: nat): (r: Reply)
    ensures k >= |s.replies| ==> r == ReplyOf([])
  {
    if k < |s.replies| then s.replies[k] else Silence
  }

  /** The session after one `waitServerCode`: one reply consumed. */
  function Await(s: State): (t: State)
    ensures forall k: nat :: ReplyAt(t, k) == ReplyAt(s, k + 1)
  {
    s.(replies := if |s.replies| > 0 then s.replies[1..] else [])
  }

  /** Whether a trace holds a command line with verb `v`, whatever its
      argument. */
  predicate Sends(t: seq<Event>, v: Verb) {
    exists i | 0 <= i < |t| :: t[i].Sent? && t[i].cmd.verb == v
  }

  /** A command line with verb `v` at position `i` is a witness for `Sends`. */
  lemma SendsAt(t: seq<Event>, i: nat, v: Verb)
    requires i < |t| && t[i].Sent? && t[i].cmd.verb == v
    ensures Sends(t, v)
  {
  }

  /** `FTP::connect(ip, port, user, password)`. `reachable` is whether the
      control connection comes up (`cClient.connected()` after connecting). */
  function Connect(s: State, ip: IPv4, port: U16, user: Option<seq<Byte>>, password: Option<seq<Byte>>, reachable: bool): (r: Step)
    ensures r.value <= 1
    ensures r.value == 1 <==>
      && user.Some? && reachable
      && ReplyAt(s, 0).code == 220
      && (|| ReplyAt(s, 1).code == 230
          || (ReplyAt(s, 1).code == 331 && password.Some? && ReplyAt(s, 2).code == 230))
    ensures user.None? ==> r.after == s && r.trace == []
    ensures user.Some? ==> 0 < |r.trace| && r.trace[0] == ControlConnect(ip, port)
    ensures user.Some? && reachable && r.value == 0 ==>
      !r.after.controlOpen && r.trace[|r.trace| - 1] == ControlStop
    ensures r.value == 1 ==> r.after.controlOpen && ControlStop !in r.trace
    ensures user.Some? && reachable && ReplyAt(s, 0).code == 220 ==>
      && 4 <= |r.trace| && r.trace[1] == Received(220)
      && r.trace[2] == Sent(Command(User, user)) && r.trace[3] == Received(ReplyAt(s, 1).code)
    ensures Sends(r.trace, Pass) <==>
      user.Some? && reachable && ReplyAt(s, 0).code == 220 && ReplyAt(s, 1).code == 331 && password.Some?
    ensures Sends(r.trace, Pass) ==>
      6 <= |r.trace| && r.trace[4] == Sent(Command(Pass, password)) && r.trace[5] == Received(ReplyAt(s, 2).code)
    ensures user.Some? && !reachable ==> r.trace == [ControlConnect(ip, port)]
    ensures user.Some? && reachable && ReplyAt(s, 0).code != 220 ==>
      r.trace == [ControlConnect(ip, port), Received(ReplyAt(s, 0).code), ControlStop]
    ensures r.value == 1 ==> |r.trace| == (if ReplyAt(s, 1).code == 230 then 4 else 6)
    ensures user.Some? && reachable && ReplyAt(s, 0).code == 220 && r.value == 0 ==>
      |r.trace| == (if Sends(r.trace, Pass) then 7 else 5)
    ensures r.after.dataOpen == s.dataOpen
  {
    if user.None? then Step(0, s, [])
    else if !reachable then Step(0, s.(controlOpen := false), [ControlConnect(ip, port)])
    else
      var s1 := s.(controlOpen := true);
      var greeting := ReplyAt(s1, 0).code;
      var s2 := Await(s1);
      if greeting != 220 then
        Step(0, s2.(controlOpen := false), [ControlConnect(ip, port), Received(greeting), ControlStop])
      else
        var login := ReplyAt(s2, 0).code;
        var s3 := Await(s2);
        var t3 := [ControlConnect(ip, port), Received(greeting), Sent(Command(User, user)), Received(login)];
        if login == 230 then Step(1, s3, t3)
        else if login != 331 || password.None? then Step(0, s3.(controlOpen := false), t3 + [ControlStop])
        else
          var accepted := ReplyAt(s3, 0).code;
          var s4 := Await(s3);
          var t4 := t3 + [Sent(Command(Pass, password)), Received(accepted)];
          SendsAt(t4, 4, Pass);
          SendsAt(t4 + [ControlStop], 4, Pass);
          if accepted == 230 then Step(1, s4, t4) else Step(0, s4.(controlOpen := false), t4 + [ControlStop])
  }

  /** `FTP::connect(ip, user, password)`: the overload for the standard
      control port. */
  function ConnectDefaultPort(s: State, ip: IPv4, user: Option<seq<Byte>>, password: Option<seq<Byte>>, reachable: bool): (r: Step)
    ensures user.Some? ==> 0 < |r.trace| && r.trace[0] == ControlConnect(ip, 21)
    ensures r.value == 1 <==>
      && user.Some? && reachable
      && ReplyAt(s, 0).code == 220
      && (|| ReplyAt(s, 1).code == 230
          || (ReplyAt(s, 1).code == 331 && password.Some? && ReplyAt(s, 2).code == 230))
  {
    Connect(s, ip, 21, user, password, reachable)
  }

  /** What the PASV step needs to have defined behaviour: the reply's
      description fits the 70-byte buffer with its NUL, and on a 227 every
      field `atoi` reads fits `int`. */
  predicate PasvReplyDefined(p: Reply) {
    |p.desc| < 70 && (p.code == 227 ==> FieldsFitInt(p.desc))
  }

  /** What `beginTransaction` needs: the PASV step's condition whenever it
      gets that far. */
  predicate PasvDefined(s: State) {
    s.controlOpen && ReplyAt(s, 0).code == 200 ==> PasvReplyDefined(ReplyAt(s, 1))
  }

  /** A PASV reply that names a data endpoint: code 227 and six fields after
      the "(" token of its description. */
  predicate Offers(p: Reply) {
    p.code == 227 && |PasvTokens(p.desc)| == 6
  }

  /** Whether `beginTransaction` gets as far as `dClient.connect`: the control
      channel is up, `TYPE I` got 200 and the PASV reply offers an endpoint. */
  predicate PassiveOffered(s: State) {
    s.controlOpen && ReplyAt(s, 0).code == 200 && Offers(ReplyAt(s, 1))
  }

  /** The only events `beginTransaction` produces: the `TYPE I` and `PASV`
      command lines, the replies to them and the data connect. */
  predicate TransactionEvent(e: Event) {
    || e.Received? || e.DataConnect?
    || e == Sent(Command(TypeImage, None)) || e == Sent(Command(Pasv, None))
  }

  /** Two traces of `beginTransaction` events joined are one. */
  lemma TransactionTrace(a: seq<Event>, b: seq<Event>)
    requires forall i | 0 <= i < |a| :: TransactionEvent(a[i])
    requires forall i | 0 <= i < |b| :: TransactionEvent(b[i])
    ensures forall i | 0 <= i < |a + b| :: TransactionEvent((a + b)[i])
  {
  }

  /** The PASV exchange, with or without the data connect, is made of
      `beginTransaction` events. */
  lemma PasvEvents(code: U16, connect: seq<Event>)
    requires connect == [] || (|connect| == 1 && connect[0].DataConnect?)
    ensures var t := [Sent(Command(Pasv, None)), Received(code)] + connect;
      forall i | 0 <= i < |t| :: TransactionEvent(t[i])
  {
  }

  /** The second half of `beginTransaction`: send `PASV`, read the reply
      into the 70-byte buffer, decode it and connect the data channel.
      `dataReachable` is whether `dClient.connected()` holds after
      connecting. */
  function EnterPassive(s: State, dataReachable: bool): (r: Step)
    requires PasvReplyDefined(ReplyAt(s, 0))
    ensures r.value <= 1
    ensures r.value == 1 <==> Offers(ReplyAt(s, 0)) && dataReachable
    ensures 2 <= |r.trace| && r.trace[0] == Sent(Command(Pasv, None)) && r.trace[1] == Received(ReplyAt(s, 0).code)
    ensures Offers(ReplyAt(s, 0)) ==>
      && |r.trace| == 3 && r.trace[2] == DataConnect(DecodePasv(ReplyAt(s, 0).desc).value)
      && r.after.dataOpen == dataReachable
    ensures !Offers(ReplyAt(s, 0)) ==> |r.trace| == 2 && r.after.dataOpen == s.dataOpen
    ensures r.after.controlOpen == s.controlOpen && r.after.replies == Await(s).replies
  {
    var pasv := ReplyAt(s, 0);
    var s1 := Await(s);
    var t := [Sent(Command(Pasv, None)), Received(pasv.code)];
    if pasv.code != 227 then Step(0, s1, t)
    else match DecodePasv(pasv.desc)
      case None => Step(0, s1, t)
      case Some(ep) =>
        Step(if dataReachable then 1 else 0, s1.(dataOpen := dataReachable),
             [Sent(Command(Pasv, None)), Received(pasv.code), DataConnect(ep)])
  }

  /** `FTP::beginTransaction()`: switch to binary with `TYPE I`, then ask for
      a passive data port and connect the data channel to it. */
  function BeginTransaction(s: State, dataReachable: bool): (r: Step)
    requires PasvDefined(s)
    ensures r.value <= 1
    ensures r.value == 1 <==> PassiveOffered(s) && dataReachable
    ensures !s.controlOpen ==> r.after == s && r.trace == []
    ensures r.after.controlOpen == s.controlOpen
    ensures r.after.dataOpen == if PassiveOffered(s) then dataReachable else s.dataOpen
    ensures s.controlOpen ==>
      && 2 <= |r.trace| && r.trace[0] == Sent(Command(TypeImage, None)) && r.trace[1] == Received(ReplyAt(s, 0).code)
    ensures s.controlOpen && ReplyAt(s, 0).code != 200 ==> |r.trace| == 2
    ensures s.controlOpen && ReplyAt(s, 0).code == 200 ==>
      && 4 <= |r.trace| && r.trace[2] == Sent(Command(Pasv, None)) && r.trace[3] == Received(ReplyAt(s, 1).code)
    ensures forall i | 0 <= i < |r.trace| :: TransactionEvent(r.trace[i])
    ensures r.value == 1 ==> r.after.replies == Await(Await(s)).replies
  {
    if !s.controlOpen then Step(0, s, [])
    else
      var binary := ReplyAt(s, 0).code;
      var s1 := Await(s);
      var t := [Sent(Command(TypeImage, None)), Received(binary)];
      if binary != 200 then Step(0, s1, t)
      else
        var p := EnterPassive(s1, dataReachable);
        PasvEvents(ReplyAt(s1, 0).code, p.trace[2..]);
        assert p.trace == [Sent(Command(Pasv, None)), Received(ReplyAt(s1, 0).code)] + p.trace[2..];
        TransactionTrace(t, p.trace);
        Step(p.value, p.after, t + p.trace)
  }

  /** `dClient.connect` is called exactly when passive mode was offered, as
      the fifth event, with the endpoint decoded from the PASV reply; on
      every early return no event follows the last reply read. */
  lemma BeginTransactionDataConnect(s: State, dataReachable: bool)
    requires PasvDefined(s)
    ensures var r := BeginTransaction(s, dataReachable);
      && (PassiveOffered(s) ==> |r.trace| == 5 && r.trace[4] == DataConnect(DecodePasv(ReplyAt(s, 1).desc).value))
      && (!PassiveOffered(s) ==> forall i | 0 <= i < |r.trace| :: !r.trace[i].DataConnect?)
      && (s.controlOpen && ReplyAt(s, 0).code == 200 && !PassiveOffered(s) ==> |r.trace| == 4)
  {
    var r := BeginTransaction(s, dataReachable);
    if s.controlOpen && ReplyAt(s, 0).code == 200 {
      var p := EnterPassive(Await(s), dataReachable);
      assert ReplyAt(Await(s), 0) == ReplyAt(s, 1);
      assert r.trace == [Sent(Command(TypeImage, None)), Received(ReplyAt(s, 0).code)] + p.trace;
    }
  }

  /** Whether `beginTransaction` returns 1: passive mode was offered and the
      data channel came up. */
  predicate Ready(s: State, dataReachable: bool) {
    PassiveOffered(s) && dataReachable
  }

  /** The part of `retrieve` after the data channel is up: `RETR`, then, on
      150, the receive pump, `dClient.stop()` and the completion reply. */
  function Fetch(s: State, fileName: Option<seq<Byte>>, size: nat, events: seq<Chunk>): (r: Transfer)
    ensures |r.buffer| <= size && r.count <= |r.buffer|
    ensures 2 <= |r.trace| && r.trace[0] == Sent(Command(Retr, fileName)) && r.trace[1] == Received(ReplyAt(s, 0).code)
    ensures ReplyAt(s, 0).code != 150 ==>
      r.count == 0 && r.buffer == [] && |r.trace| == 2 && r.after.dataOpen == s.dataOpen
    ensures ReplyAt(s, 0).code == 150 ==>
      && r.buffer == Pumped(events, size)
      && |r.trace| == 4 && r.trace[2] == DataStop && r.trace[3] == Received(ReplyAt(s, 1).code)
      && !r.after.dataOpen
      && r.count == (if ReplyAt(s, 1).code == 226 then |r.buffer| else 0)
    ensures r.after.controlOpen == s.controlOpen
  {
    var reply := ReplyAt(s, 0).code;
    var s1 := Await(s);
    var t := [Sent(Command(Retr, fileName)), Received(reply)];
    if reply != 150 then Transfer(0, [], s1, t)
    else
      var data := Pumped(events, size);
      var s2 := s1.(dataOpen := false);
      var final := ReplyAt(s2, 0).code;
      Transfer(if final == 226 then |data| else 0, data, Await(s2), t + [DataStop, Received(final)])
  }

  /** `FTP::retrieve(fileName, buff, size)`. `hasBuffer` is whether `buff` is
      non-null; `events` is what the data channel does during the pump. The
      count is non-zero only after a 150 and a 226, and it is then the number
      of bytes in the buffer. */
  function Retrieve(s: State, fileName: Option<seq<Byte>>, hasBuffer: bool, size: nat,
                    dataReachable: bool, events: seq<Chunk>): (r: Transfer)
    requires hasBuffer && 0 < size ==> PasvDefined(s)
    ensures !hasBuffer || size == 0 ==> r.count == 0 && r.after == s && r.trace == []
    ensures r.count <= size && |r.buffer| <= size
    ensures !Ready(s, dataReachable) ==> r.count == 0 && r.buffer == []
    ensures hasBuffer && 0 < size && !Ready(s, dataReachable) ==>
      && !Sends(r.trace, Retr) && DataStop !in r.trace
      && forall i | 0 <= i < |r.trace| :: TransactionEvent(r.trace[i])
    ensures r.count > 0 ==>
      && Ready(s, dataReachable) && ReplyAt(s, 2).code == 150 && ReplyAt(s, 3).code == 226
      && r.count == |r.buffer|
    ensures r.after.controlOpen == s.controlOpen
  {
    if !hasBuffer || size == 0 then Transfer(0, [], s, [])
    else
      var b := BeginTransaction(s, dataReachable);
      if b.value == 0 then Transfer(0, [], b.after, b.trace)
      else
        AfterTransaction(s, b.after);
        var f := Fetch(b.after, fileName, size, events);
        Transfer(f.count, f.buffer, f.after, b.trace + f.trace)
  }

  /** Once `beginTransaction` succeeded, `retrieve` sends `RETR` with the
      file name as the sixth event and reads its reply; on anything but 150
      it returns 0 at once, leaving the data channel open. */
  lemma RetrieveRefused(s: State, fileName: Option<seq<Byte>>, size: nat, dataReachable: bool, events: seq<Chunk>)
    requires PasvDefined(s) && 0 < size && Ready(s, dataReachable)
    requires ReplyAt(s, 2).code != 150
    ensures var r := Retrieve(s, fileName, true, size, dataReachable, events);
      && |r.trace| == 7 && r.trace[5] == Sent(Command(Retr, fileName)) && r.trace[6] == Received(ReplyAt(s, 2).code)
      && r.count == 0 && r.buffer == [] && r.after.dataOpen
  {
    var b := BeginTransaction(s, dataReachable);
    BeginTransactionDataConnect(s, dataReachable);
    AfterTransaction(s, b.after);
    var f := Fetch(b.after, fileName, size, events);
    assert Retrieve(s, fileName, true, size, dataReachable, events).trace == b.trace + f.trace;
  }

  /** After a 150, `retrieve` fills the buffer with what the pump read, stops
      the data channel and only then reads the completion reply; it returns
      the number of bytes read when that reply is 226. */
  lemma RetrieveReceives(s: State, fileName: Option<seq<Byte>>, size: nat, dataReachable: bool, events: seq<Chunk>)
    requires PasvDefined(s) && 0 < size && Ready(s, dataReachable)
    requires ReplyAt(s, 2).code == 150
    ensures var r := Retrieve(s, fileName, true, size, dataReachable, events);
      && |r.trace| == 9 && r.trace[5] == Sent(Command(Retr, fileName)) && r.trace[6] == Received(150)
      && r.trace[7] == DataStop && r.trace[8] == Received(ReplyAt(s, 3).code)
      && r.buffer == Pumped(events, size) && !r.after.dataOpen
      && r.count == (if ReplyAt(s, 3).code == 226 then |r.buffer| else 0)
  {
    var b := BeginTransaction(s, dataReachable);
    BeginTransactionDataConnect(s, dataReachable);
    AfterTransaction(s, b.after);
    var f := Fetch(b.after, fileName, size, events);
    assert Retrieve(s, fileName, true, size, dataReachable, events).trace == b.trace + f.trace;
  }

  /** The part of `store` after the data channel is up: `STOR`, then, on
      150, one write, `dClient.stop()` and the completion reply. `accepted`
      is how many bytes the data channel takes. */
  function Deliver(s: State, fileName: Option<seq<Byte>>, data: seq<Byte>, accepted: nat): (r: Step)
    ensures r.value <= |data| && r.value <= accepted
    ensures 2 <= |r.trace| && r.trace[0] == Sent(Command(Stor, fileName)) && r.trace[1] == Received(ReplyAt(s, 0).code)
    ensures ReplyAt(s, 0).code != 150 ==> r.value == 0 && |r.trace| == 2 && r.after.dataOpen == s.dataOpen
    ensures ReplyAt(s, 0).code == 150 ==>
      && |r.trace| == 5 && r.trace[2] == DataWrite(data[..Min(accepted, |data|)])
      && r.trace[3] == DataStop && r.trace[4] == Received(ReplyAt(s, 1).code)
      && !r.after.dataOpen
      && r.value == (if ReplyAt(s, 1).code == 226 then Min(accepted, |data|) else 0)
    ensures r.after.controlOpen == s.controlOpen
  {
    var reply := ReplyAt(s, 0).code;
    var s1 := Await(s);
    var t := [Sent(Command(Stor, fileName)), Received(reply)];
    if reply != 150 then Step(0, s1, t)
    else
      var written := Min(accepted, |data|);
      var s2 := s1.(dataOpen := false);
      var final := ReplyAt(s2, 0).code;
      Step(if final == 226 then written else 0, Await(s2), t + [DataWrite(data[..written]), DataStop, Received(final)])
  }

  /** `FTP::store(fileName, buff, size)`. `hasBuffer` is whether `buff` is
      non-null and `data` holds its `size` bytes. The count is non-zero only
      after a 150 and a 226, and it is then what the data channel took. */
  function Store(s: State, fileName: Option<seq<Byte>>, hasBuffer: bool, data: seq<Byte>,
                 dataReachable: bool, accepted: nat): (r: Step)
    requires hasBuffer && 0 < |data| ==> PasvDefined(s)
    ensures !hasBuffer || |data| == 0 ==> r.value == 0 && r.after == s && r.trace == []
    ensures r.value <= |data| && r.value <= accepted
    ensures !Ready(s, dataReachable) ==> r.value == 0
    ensures hasBuffer && 0 < |data| && !Ready(s, dataReachable) ==>
      && !Sends(r.trace, Stor) && DataStop !in r.trace
      && forall i | 0 <= i < |r.trace| :: TransactionEvent(r.trace[i])
    ensures r.value > 0 ==>
      && Ready(s, dataReachable) && ReplyAt(s, 2).code == 150 && ReplyAt(s, 3).code == 226
      && r.value == Min(accepted, |data|)
    ensures r.after.controlOpen == s.controlOpen
  {
    if !hasBuffer || |data| == 0 then Step(0, s, [])
    else
      var b := BeginTransaction(s, dataReachable);
      if b.value == 0 then Step(0, b.after, b.trace)
      else
        AfterTransaction(s, b.after);
        var d := Deliver(b.after, fileName, data, accepted);
        Step(d.value, d.after, b.trace + d.trace)
  }

  /** Once `beginTransaction` succeeded, `store` sends `STOR` with the file
      name as the sixth event; after a 150 it writes the bytes the channel
      takes, stops the data channel and then reads the completion reply, and
      it returns what the channel took exactly when that reply is 226. */
  lemma StoreSends(s: State, fileName: Option<seq<Byte>>, data: seq<Byte>, dataReachable: bool, accepted: nat)
    requires PasvDefined(s) && 0 < |data| && Ready(s, dataReachable)
    ensures var r := Store(s, fileName, true, data, dataReachable, accepted);
      && 7 <= |r.trace| && r.trace[5] == Sent(Command(Stor, fileName)) && r.trace[6] == Received(ReplyAt(s, 2).code)
      && (ReplyAt(s, 2).code != 150 ==> |r.trace| == 7 && r.value == 0 && r.after.dataOpen)
      && (ReplyAt(s, 2).code == 150 ==>
            && |r.trace| == 10 && r.trace[7] == DataWrite(data[..Min(accepted, |data|)])
            && r.trace[8] == DataStop && r.trace[9] == Received(ReplyAt(s, 3).code)
            && !r.after.dataOpen
            && r.value == (if ReplyAt(s, 3).code == 226 then Min(accepted, |data|) else 0))
  {
    var b := BeginTransaction(s, dataReachable);
    BeginTransactionDataConnect(s, dataReachable);
    AfterTransaction(s, b.after);
    var d := Deliver(b.after, fileName, data, accepted);
    assert Store(s, fileName, true, data, dataReachable, accepted).trace == b.trace + d.trace;
  }

  /** After a successful `beginTransaction` the next two replies read are the
      third and fourth of the script. */
  lemma AfterTransaction(s: State, t: State)
    requires t.replies == Await(Await(s)).replies
    ensures ReplyAt(t, 0) == ReplyAt(s, 2) && ReplyAt(Await(t), 0) == ReplyAt(s, 3)
  {
    assert ReplyAt(t, 0) == ReplyAt(Await(Await(s)), 0);
    assert ReplyAt(Await(t), 0) == ReplyAt(Await(Await(s)), 1);
  }
}
